=== FILE: README.md ===
# IMS game core in Dafny

A model of the rules engine of IMS, a small tile-based digging game. The
player digs tunnels through a 15 x 14 grid of blocks and fires lasers.
Enemies spawn from a hive in the bottom-right corner and chase the player
along A* paths. The hive opens after ten spawns and can then be shot. The
level is cleared when the hive is destroyed and no enemy remains. Scores go
into a top-five table per difficulty.

The model uses immutable datatypes and pure functions. The grid is
`seq<seq<int>>` indexed `grid[y][x]`, with cell values 0 (empty), 1
(normal block) and 2 (special block). The A* search is a method with loop
invariants and a termination measure. Wall-clock time is an explicit
`now: real` parameter. The random block upgrade of map generation is an
explicit `upgrade(row, column)` choice. Python's `int()` on floats is
truncation toward zero (`Cells.Trunc`).

Modules:

- `Cells`: grid coordinates, Manhattan distance, 4-adjacency, truncation.
- `Grids`: the grid type and the game's `can_dig`, `can_move` and `destroy_block`.
- `PathFinding`: `Enemy.find_path_to_player`, proved terminating, complete and optimal.
- `GameMap`: `Map`, covering generation, block destruction and the hive state machine.
- `Enemies`: the discrete part of `Enemy`, covering re-planning, dying and facing.
- `Players`: `Player` and `Laser`.
- `Games`: the rules of `Game`, covering start, spawning, life loss, collisions, enemy removal and level clear.
- `Scoreboards`: `Scoreboard.add_score` and the difficulty cycling of the score screen.
- `Wrappers`: `Option`.

The model follows the code in two places where one might expect otherwise:

- The hive cell is an ordinary empty grid cell (value 0, on the tunnel).
  Players and enemies can therefore walk onto it in every hive state
  (`GameMap.HiveCellOpen`).
- A laser that overlaps an enemy already in its dying state still counts as
  a hit. It is used up, scores 300, and `die` leaves the enemy unchanged
  (`Games.LaserPass`).

## Model

| member | source | states |
|---|---|---|
| Cells.Trunc | Game.py:72 | `int()` on a float truncates toward zero: the result lies within one unit of the argument on the zero side and has its sign |
| Cells.TruncReference | Game.py:72 | truncation is the floor on non-negative numbers and is odd, `int(-r) == -int(r)` |
| Cells.Neighbors | Enemy.py:111 | the four neighbours the search expands, left, right, up, down: four distinct cells, each 4-adjacent to the expanded one |
| Cells.AdjacentIffNeighbor | Enemy.py:111 | a cell is one of the four expanded neighbours exactly when it differs by one in exactly one axis |
| Cells.AdjacentSymmetric | Enemy.py:111 | 4-adjacency is symmetric |
| Cells.ManhattanStep | Enemy.py:127 | the Manhattan heuristic is consistent: one step changes it by at most one |
| Grids.CanDig | Game.py:70-75 | a diggable position lies in the grid on a cell that is not walkable and is worth points when destroyed |
| Grids.CanMove | Game.py:184-189 | a walkable position lies in the grid and is never diggable; a position outside the grid is neither; an in-bounds cell of value 0, 1 or 2 is one or the other |
| Grids.TruncateFirst | Game.py:77-80 | truncating the coordinates before `can_dig` or `can_move` (as `destroy_block` and `Player.move` do) selects the same cell and gives the same answers |
| Grids.Set | Game.py:82 | writing one grid cell keeps the dimensions and changes no other cell |
| Grids.DestroyBlock | Game.py:77-86 | a diggable cell (truncated coordinates in bounds, value 1 or 2) becomes 0 and the score rises by 100 for a 1 and 300 for a 2; otherwise grid and score are unchanged; no other cell ever changes |
| Grids.DestroyBlockOpensCell | Game.py:70-86 | after a successful dig the cell satisfies `can_move` and no longer `can_dig`, and the score went up |
| Grids.DestroyBlockIdempotent | Game.py:77-86 | a second `destroy_block` at the same place changes neither grid nor score |
| PathFinding.HeuristicAdmissible | Enemy.py:127 | along any walk to the goal, the heuristic at a node never exceeds the remaining walk length |
| PathFinding.WalkAtLeastManhattan | Enemy.py:127 | no walk to the goal is shorter than the Manhattan distance from the start |
| PathFinding.PopMin | Enemy.py:101 | `open_set.get()` removes one entry that is least in Python's `(f, (x, y))` tuple order and keeps all the others |
| PathFinding.ChainIsPath | Enemy.py:103-109 | following `came_from` back from a discovered cell and reversing yields a walk from the start to that cell through open cells, no longer than its `g`, not containing the start |
| PathFinding.Relax | Enemy.py:113-128 | relaxing an open neighbour leaves its `g` at most the expanded cell's `g + 1`; no known `g` rises and no other cell's changes; a change records the back-pointer to the expanded cell and pushes exactly one entry with priority `g + h` |
| PathFinding.RowSumLower | Enemy.py:125 | lowering one `g` score lowers the row sum of `g` by exactly the decrease |
| PathFinding.GridSumLower | Enemy.py:125 | lowering one `g` score lowers the grid sum of `g` by exactly the decrease |
| PathFinding.RelaxProgress | Enemy.py:121-128 | a relaxation either changes nothing, or discovers a new in-bounds cell, or strictly lowers the sum of `g`: the termination argument without a closed set |
| PathFinding.InitialOptimal | Enemy.py:93-98 | the initial state, with entry `(0, start)` and `g[start] = 0`, satisfies the optimality witness for every walk to the goal |
| PathFinding.PendingWithin | Enemy.py:100-128 | while a walk to the goal exists, some open entry has priority at most its length |
| PathFinding.PopKeepsOptimal | Enemy.py:101-111 | popping a non-goal entry keeps the witness, with the popped cell's neighbours still to relax |
| PathFinding.PopKeepsValid | Enemy.py:101 | popping any entry keeps the structural invariant of the search |
| PathFinding.RelaxKeepsOptimal | Enemy.py:113-128 | relaxing one neighbour keeps the witness for every walk to the goal |
| PathFinding.DoneKeepsOptimal | Enemy.py:113-128 | after all four neighbours are relaxed the witness no longer depends on the expanded cell |
| PathFinding.RelaxKeepsValid | Enemy.py:113-128 | relaxing a neighbour keeps back-pointers on open adjacent cells with strictly smaller `g`, and every entry at or above its cell's `g + h` |
| PathFinding.GoalPopped | Enemy.py:103-109 | when the goal is popped as a least entry, the reconstructed path reaches the goal and is no longer than any walk to it |
| PathFinding.ExhaustedUnreachable | Enemy.py:100-130 | an empty open set means no walk from start to goal exists |
| PathFinding.RelaxStep | Enemy.py:113-128 | one step of the neighbour loop keeps validity, the witness and progress of the termination measure |
| PathFinding.FindPath | Enemy.py:88-130 | `Some([])` when start equals goal; `None` exactly when the goal is unreachable through in-bounds 0 cells; otherwise a walk from the first step to the goal, excluding the start, of shortest length |
| GameMap.HiveCodeRange | Map.py:25 | `hive_state` is 0, 1 or 2; `> 0` means alive; 2 means exposed |
| GameMap.BaseLayoutIsTunnel | Map.py:30-45 | the literal layout has 14 rows of 15 cells, with 0 exactly at columns `r` and `r + 1` of row `r` and 1 elsewhere |
| GameMap.GenerateMap | Map.py:28-50 | the generated grid is 14 x 15; a cell is 0 exactly on the tunnel; every other cell is 1 or 2, and 2 exactly where the random draw upgraded it |
| GameMap.HiveCellOpen | Map.py:23-24 | the hive cell `(14, 13)` is an empty cell of every generated map |
| GameMap.TunnelConnectsHiveToOrigin | Map.py:30-50 | on every generated map the tunnel is a walk from the hive to `(0, 0)` as long as their Manhattan distance |
| GameMap.FreshMapChaseLength | Map.py:30-50 | on a fresh map, a shortest path from the hive to the player's start has exactly 27 steps |
| GameMap.DestroyBlock | Map.py:63-66 | an in-bounds cell becomes 0; out of bounds nothing changes; no other cell and no hive field changes |
| GameMap.UpgradeHive | Map.py:68-71 | the hive becomes exposed exactly when it was sealed and at least ten enemies have spawned; every other state is kept |
| GameMap.UpgradeHiveIdempotent | Map.py:68-71 | a repeated `upgrade_hive` changes nothing |
| GameMap.DestroyHive | Map.py:73-76 | the hive is destroyed and its cell set to 0; no other cell changes |
| GameMap.HiveNeverRegresses | Map.py:63-76 | no map operation moves the hive back from exposed to sealed or from destroyed to alive |
| Enemies.Spawn | Enemy.py:10-29 | a new enemy stands where it was spawned, is not dying, has an empty path that triggers a search on its first update, and has speed `0.5 x` the multiplier |
| Enemies.Replan | Enemy.py:40-44 | with a missing, empty or used-up path, the enemy searches from its cell to the player's and resets the cursor; it then moves exactly when the player's cell is reachable and differs from its own, along a shortest path |
| Enemies.Die | Enemy.py:136-141 | `die` puts the enemy in its dying state and starts the death clock only on the first call, changing nothing else; a dying enemy is left as it was |
| Enemies.DieIdempotent | Enemy.py:136-141 | a second `die` changes nothing |
| Enemies.Dying | Enemy.py:33-38 | a dying enemy is removed exactly when `die_duration` has elapsed; otherwise it shows the frame for the elapsed fraction, clamped to at most 7 |
| Enemies.Update | Enemy.py:31-44 | a dying enemy is frozen and reports removal exactly when its time is up; a living one is never removed and re-plans exactly when it must, getting a path exactly when the player's cell is reachable; the model changes only path and cursor, since movement, facing and cursor advance are not modelled |
| Enemies.FacingFollowsLastHorizontalMove | Enemy.py:75-78 | after any sequence of moves an enemy faces the way its last horizontal move went, and keeps its facing if it only moved vertically |
| Players.NewPlayer | Player.py:9-31 | the player starts at the origin without lasers or a dig direction |
| Players.Move | Player.py:60-80 | a move changes at most one coordinate, by exactly 0.5; it commits only into a cell passing `can_move`, and is refused only when the edge guard or `can_move` fails; a horizontal move past the edge guard sets the facing even when blocked, vertical moves never change it; only position, facing, animation frame and the dig and laser directions change |
| Players.HalfGridPositive | Player.py:63-70 | a half-tile coordinate above zero is at least 0.5 |
| Players.HalfGridBelow | Player.py:63-70 | a half-tile coordinate below a half-tile bound is at least 0.5 below it |
| Players.HalfGridStep | Player.py:64-71 | half-tile steps keep a coordinate on the half-tile lattice |
| Players.StepStaysInArena | Player.py:62-72 | the edge guards keep the tentative position of a player in the arena inside `[0, 14] x [0, 13]` on the half-tile lattice |
| Players.MoveStaysInArena | Player.py:60-75 | a player in `[0, 14] x [0, 13]` on the half-tile lattice stays there after any move on any grid |
| Players.DigTarget | Player.py:92-100 | `dig` aims one whole tile away from the player along the unit heading of the dig direction |
| Players.Dig | Player.py:89-105 | without a direction nothing happens; otherwise the target block is destroyed and scored, and the dig starts, exactly when `can_dig` holds |
| Players.DigTouchesOneCell | Player.py:89-105 | a dig changes no cell but its target, never lowers the score and never moves the player |
| Players.Reset | Player.py:33-38 | `reset` puts the player at `(0, 0)` with no lasers and no dig in progress, and keeps everything else |
| Players.ResetInArena | Player.py:33-38 | a reset player is inside the arena |
| Players.ShootLaser | Player.py:82-87 | a laser is appended at the player's position in the last direction, and the fire time recorded, exactly when the cooldown has elapsed and a direction is set; nothing else about the player changes |
| Players.CooldownLimitsFire | Player.py:82-87 | two shots closer together than the cooldown add at most one laser |
| Players.EndDig | Player.py:110-111 | the dig flag clears exactly once `dig_duration` has elapsed; nothing else changes |
| Players.EndDigSettles | Player.py:110-111 | once the dig has timed out, later updates change nothing, and two updates act like the later one alone |
| Players.LaserStep | Player.py:141-150 | one laser update moves 0.3 along the laser's axis only |
| Players.LaserStraightLine | Player.py:141-150 | in exact arithmetic, after `n` updates a laser has moved `0.3 n` along its heading and not at all across it |
| Players.OverlapSymmetric | Player.py:156-162 | the laser overlap tests are symmetric and hold exactly when both axis distances are below one tile |
| Games.DifficultyTable | Game.py:45-53 | easy gives cooldown 2.5 and speed multiplier 0.3, medium 3.5 and 0.9, anything else 4.5 and 1.2; harder means longer cooldown and faster enemies |
| Games.Start | Game.py:30-53 | a fresh map, sealed hive, spawn count 0, spawn timer 0, the player reset with the difficulty's cooldown, no enemies, score 0, three lives, neither over nor cleared, settings from the difficulty table; the game's own spawn counter is kept |
| Games.SpawnEnemy | Game.py:160-171 | when at least 3 seconds have passed, fewer than 15 enemies exist and the hive is alive, exactly one enemy is appended at the hive, both counters advance and the hive is exposed once both reach ten, and nothing else changes; otherwise nothing changes at all |
| Games.SpawnKeepsConsistent | Game.py:160-171 | spawning never takes the enemy count above 15 and keeps the map size and the player in the arena |
| Games.HiveExposedOnTenthSpawn | Game.py:168-171 | while the game's spawn counter is not behind the map's (which `Consistent` keeps), a sealed hive becomes exposed on the spawn that brings the map's count to ten, and not before |
| Games.PlayerHit | Game.py:173-182 | one life is lost; the game is over exactly when lives reach zero or below; otherwise all enemies are removed and the player is reset; nothing else changes |
| Games.PlayerHitKeepsConsistent | Game.py:173-182 | losing a life keeps the game consistent |
| Games.ThirdHitEndsGame | Game.py:173-177 | from three lives, the third hit ends the game and the first two do not |
| Games.ContactPass | Game.py:138-140 | each enemy of the snapshot that overlaps the player costs one life, checked against the player's current (possibly just reset) position; if some enemy overlaps the player's starting position at least one life is lost; with no life lost nothing changes; a contact that leaves zero lives or fewer ends the game, otherwise after contacts the enemies are gone and the player is reset; the player is either untouched or exactly reset; only lives, game over, enemies and player can change |
| Games.FirstHit | Game.py:144-149 | the laser's target is the first enemy in list order it overlaps; none exactly when it overlaps no enemy |
| Games.MissesDependOnPlaces | Game.py:143-149 | which lasers miss depends only on the enemies' positions, which `die` does not change |
| Games.FirstHitDependsOnPlaces | Game.py:144-149 | which enemy a laser hits first depends only on the enemies' positions |
| Games.DieCountsOnce | Game.py:146 | one `die` adds at most one dying enemy |
| Games.LaserPass | Game.py:143-149 | each laser kills at most one enemy and is used up when it hits; the kept lasers are exactly those overlapping no enemy; no enemy moves; every enemy is either unchanged or killed; dying enemies grow by at most the number of hits |
| Games.LaserPassKills | Game.py:143-149 | the enemy each laser hits first ends the pass dying, with `die` applied to it (an already dying one is left as it was) |
| Games.LaserPassSpares | Game.py:143-149 | an enemy that no laser hits first comes out of the pass unchanged |
| Games.LaserStage | Game.py:143-149 | the player keeps exactly the lasers that hit nothing, the score rises by 300 per hit, the first-hit enemies are killed and all others unchanged, and nothing else in the game changes |
| Games.FirstHiveHit | Game.py:153-154 | the laser that hits the hive is the first in list order overlapping the hive cell; none exactly when no laser overlaps it |
| Games.HiveShot | Game.py:152-158 | only an exposed hive can be hit; the first overlapping laser destroys it, is used up and scores 1000; at most one hit per call |
| Games.CheckCollisions | Game.py:136-158 | the score rises by 300 per laser hit plus 1000 exactly when an exposed hive is destroyed; enemies keep their positions; the enemy each surviving laser hits first is killed and no other enemy changes; a contact with any enemy costs at least one life and lives never rise; a contact leaving zero lives or fewer ends the game, otherwise the enemies are gone and the player is reset; the hive only goes from exposed to destroyed, and the map changes only by that destruction; the player after contacts changes only in its lasers, which are the misses or the misses less the one that hit the hive; spawn counters, difficulty and timers are unchanged |
| Games.CheckCollisionsKeepsConsistent | Game.py:136-158 | collision handling keeps the game consistent |
| Games.UpdateEnemies | Game.py:114 | every enemy updates; exactly those whose death animation has run out are dropped, and the others stay in order, each as `Enemies.Update` leaves it: unchanged when dying or holding a usable path, otherwise re-planned from its cell with the cursor reset and a path exactly when the player's cell is reachable; movement, facing and cursor advance are not modelled |
| Games.LivingSurvive | Game.py:114 | an enemy that is not dying is never dropped, and the list never grows |
| Games.SurvivorsShorter | Game.py:114 | removing expired enemies never lengthens the list |
| Games.CheckClear | Game.py:126-129 | the level is cleared, with 5000 points, exactly when the hive is destroyed and no enemy remains; nothing else changes |
| Games.NoClearWhileHiveStands | Game.py:126-129 | while the hive is alive the clear check changes nothing |
| Scoreboards.Insert | Scoreboard.py:32 | inserting into a descending list keeps it descending, adds exactly the new score, and puts the larger of the new score and the old best first |
| Scoreboards.SortDesc | Scoreboard.py:32 | `sort(reverse=True)` yields a descending permutation of its input |
| Scoreboards.SortedDescUnique | Scoreboard.py:32 | two descending lists with the same elements are equal, so the sort's result is determined by the scores alone |
| Scoreboards.Top | Scoreboard.py:33 | the cut keeps `min(5, n)` scores and stays descending |
| Scoreboards.TopKeepsLargest | Scoreboard.py:33 | every score the cut drops is at most every score it keeps |
| Scoreboards.AddScore | Scoreboard.py:29-33 | a missing difficulty is an error; otherwise that list becomes the best `min(5, n + 1)` of the old scores plus the new one, descending, and every other list is unchanged |
| Scoreboards.AddScoreAdmission | Scoreboard.py:29-33 | a list with fewer than five scores always takes the new one; a rejected score is no better than any of the five kept |
| Scoreboards.AddScoreOrderFree | Scoreboard.py:29-33 | the resulting list does not depend on the order the old list was stored in |
| Scoreboards.FirstScore | Scoreboard.py:29-33 | on a fresh board, the first score at a difficulty becomes that difficulty's whole list |
| Scoreboards.NextDifficulty | Scoreboard.py:64-66 | easy goes to medium, medium to hard, hard to easy; any other name is an error |
| Scoreboards.DifficultyCycle | Scoreboard.py:64-66 | three presses return to the starting difficulty after showing all three |

## Left out

- Sub-tile enemy movement, corner cutting and the cursor advance (Enemy.py:45-84, apart from the facing rule at lines 75-78). They use square roots and a floating-point threshold.
- Enemies.Update: models the dying branch and the re-planning of a living enemy, not its movement or cursor advance, for the reason above.
- Games.UpdateEnemies: a living enemy keeps its position, facing and cursor in the model, while `Enemy.update` moves it (Enemy.py:72-73), turns it (Enemy.py:75-78) and advances the cursor (Enemy.py:64, 83-84); only re-planning and removal are modelled, for the reason above.
- Enemies.Dying: requires `now >= die_time`, since the clock never runs backwards between `die` and `update`.
- The `avoid_positions` argument of `Enemy.update` (Game.py:114, 134), which the enemy never reads. `Game.update_enemies` (Game.py:131-134) is never called.
- The laser flight and culling of `Game.update` (Game.py:116-124). It reads the grid with Python's negative-index wrap-around, and its block-destroying `elif` branch can never run.
- The laser loop of `Player.update` (Player.py:113-116). It removes lasers from the list it is iterating, so some lasers are skipped in a tick. Only single laser steps (`Players.LaserStep`) are modelled.
- `Game.update` as one composed tick. Its laser stages are left out as above; every other stage is modelled by its own member.
- Players.LaserStraightLine: Python floats are modelled as exact reals, so the 0.3 steps of a laser do not drift. In Python ten steps right from x = 10.0 give 13.000000000000007, so an overlap test such as `collides_with_hive(14, 13)` can hold there and fail in the model. The same applies to `Players.LaserStep`, `Players.OverlapSymmetric`, `Players.CollidesWith`, `Players.CollidesWithHive` and the collision members of `Games` built on them.
- The `hive_destroyed` flag of `Game` (Game.py:110-111), which nothing reads.
- `Player.collides_with` (Player.py:126-128), which nothing calls.
- Games.ContactPass: bounds the life loss by the number of enemies in the snapshot, and guarantees at least one lost life when any enemy overlaps the player's starting position, rather than counting overlaps exactly. Each non-fatal hit resets the player, so which later enemies overlap depends on the new position.
- All rendering: `draw`, HUD, image selection, animation-frame indices other than the death frame, and `make_transparent`.
- Wall-clock reads and sleeps. These are the `now` parameters.
- `random.random()`. This is the `upgrade` parameter of `GameMap.GenerateMap`.
- Joystick input (`handle_input`), the game loop `run`, the menu and `main.py`. These are interactive loops over external devices.
- `load_scores` and `save_scores`. These are JSON file I/O.

=== FILE: cells.dfy ===
/**
 Integer grid coordinates shared by the map, the path finder and the player:
 Python's `int()` truncation, Manhattan distance and 4-adjacency.
 */
module Cells {

  /** A grid coordinate `(x, y)`: `x` is the column, `y` the row. */
  datatype Cell = Cell(x: int, y: int)

  function Abs(n: int): nat {
    if n < 0 then -n else n
  }

  /** Python's `int()` on a float: truncation toward zero (not the floor). */
  function Trunc(r: real): (n: int)
    ensures 0.0 <= r ==> n as real <= r < n as real + 1.0
    ensures r < 0.0 ==> n as real - 1.0 < r <= n as real
    ensures 0.0 <= r ==> 0 <= n
    ensures r < 0.0 ==> r <= n as real && n <= 0
  {
    if r >= 0.0 then r.Floor else -((-r).Floor)
  }

  /** Truncation is the floor on non-negative numbers and is odd: it
      rounds a negative number to minus the truncation of its magnitude. */
  lemma TruncReference(r: real)
    ensures r >= 0.0 ==> Trunc(r) == r.Floor
    ensures Trunc(-r) == -Trunc(r)
  {
  }

  /** The A* heuristic `abs(goal[0] - x) + abs(goal[1] - y)`. */
  function Manhattan(a: Cell, b: Cell): nat {
    Abs(a.x - b.x) + Abs(a.y - b.y)
  }

  /** One 4-connected step: exactly one axis differs, and by exactly one. */
  predicate Adjacent(a: Cell, b: Cell) {
    Manhattan(a, b) == 1
  }

  /** The neighbours in the order the search visits them: left, right, up, down. */
  function Neighbors(c: Cell): (ns: seq<Cell>)
    ensures |ns| == 4
    ensures forall k :: 0 <= k < 4 ==> Adjacent(c, ns[k])
    ensures forall k, l :: 0 <= k < l < 4 ==> ns[k] != ns[l]
  {
    [Cell(c.x - 1, c.y), Cell(c.x + 1, c.y), Cell(c.x, c.y - 1), Cell(c.x, c.y + 1)]
  }

  /** Every 4-adjacent cell is one of the four visited neighbours, and conversely. */
  lemma AdjacentIffNeighbor(a: Cell, b: Cell)
    ensures Adjacent(a, b) <==> b in Neighbors(a)
  {
    if Adjacent(a, b) {
      if a.x == b.x {
        assert b == Neighbors(a)[2] || b == Neighbors(a)[3];
      } else {
        assert b == Neighbors(a)[0] || b == Neighbors(a)[1];
      }
    }
  }

  lemma AdjacentSymmetric(a: Cell, b: Cell)
    ensures Adjacent(a, b) <==> Adjacent(b, a)
  {
  }

  /** The Manhattan heuristic is consistent: one step changes it by at most one. */
  lemma ManhattanStep(a: Cell, b: Cell, goal: Cell)
    requires Adjacent(a, b)
    ensures Manhattan(a, goal) <= Manhattan(b, goal) + 1
  {
  }
}

=== FILE: enemies.dfy ===
/**
 The discrete part of an enemy (`Enemy`): when it re-plans its path, the
 timed dying state, the idempotent `die`, and the facing rule. The sub-tile
 movement along the path is not part of this model.
 */
module Enemies {
  import opened Wrappers
  import opened Cells
  import opened Grids
  import PathFinding

  /** Seconds the death animation lasts (`die_duration`). */
  const DieDuration: real := 1.0
  /** Number of death-animation frames (`len(self.die_images)`). */
  const DieFrames: nat := 8

  /** `path` is `Some([])` initially and `None` after a failed search, as in
      the source; `cursor` is `current_path_index`. */
  datatype Enemy = Enemy(
    x: real, y: real,
    speed: real,
    path: Option<seq<Cell>>,
    cursor: nat,
    facingRight: bool,
    isDying: bool,
    dieTime: real)

  /** `not self.path or self.current_path_index >= len(self.path)`. */
  predicate NeedsReplan(e: Enemy) {
    e.path.None? || |e.path.value| == 0 || e.cursor >= |e.path.value|
  }

  /** `if self.path:` — the enemy takes a step this tick. */
  predicate Moves(e: Enemy) {
    e.path.Some? && |e.path.value| > 0
  }

  /** `Enemy(...)` as the game spawns it: at `(x, y)`, not dying, with an
      empty path, so that its first update searches. */
  function Spawn(x: real, y: real, speedMultiplier: real): (e: Enemy)
    ensures e.x == x && e.y == y && !e.isDying && NeedsReplan(e) && !Moves(e)
    ensures e.speed == 0.5 * speedMultiplier
  {
    Enemy(x, y, 0.5 * speedMultiplier, Some([]), 0, true, false, 0.0)
  }

  /** Enemy.py lines 40-42 (`update`): re-plan from the enemy's cell to the player's
      cell when the path is empty, missing or used up, and reset the cursor.
      Afterwards the enemy moves exactly when the player's cell is reachable
      and is not its own cell, and then the cursor indexes the path. */
  method Replan(grid: Grid, e: Enemy, playerX: real, playerY: real) returns (e': Enemy)
    ensures !NeedsReplan(e) ==> e' == e
    ensures NeedsReplan(e) ==> e' == e.(path := e'.path, cursor := 0)
    ensures NeedsReplan(e) ==>
      (e'.path.Some? <==> PathFinding.Reachable(grid, CellOf(e.x, e.y), CellOf(playerX, playerY)))
    ensures NeedsReplan(e) ==>
      (Moves(e') <==> PathFinding.Reachable(grid, CellOf(e.x, e.y), CellOf(playerX, playerY))
                      && CellOf(e.x, e.y) != CellOf(playerX, playerY))
    ensures NeedsReplan(e) && e'.path.Some? ==>
      && PathFinding.IsPathTo(grid, CellOf(e.x, e.y), CellOf(playerX, playerY), e'.path.value)
      && forall p :: PathFinding.IsPathTo(grid, CellOf(e.x, e.y), CellOf(playerX, playerY), p) ==>
           |e'.path.value| <= |p|
    ensures Moves(e') ==> e'.cursor < |e'.path.value|
  {
    if NeedsReplan(e) {
      var start := CellOf(e.x, e.y);
      var goal := CellOf(playerX, playerY);
      var p := PathFinding.FindPath(grid, start, goal);
      e' := e.(path := p, cursor := 0);
      if p.Some? && |p.value| == 0 {
        assert PathFinding.End(start, p.value) == start;
      }
    } else {
      e' := e;
    }
  }

  /** `die`: the first call starts the death clock; later calls change nothing. */
  function Die(e: Enemy, now: real): (e': Enemy)
    ensures e'.isDying
    ensures e'.x == e.x && e'.y == e.y && e'.path == e.path && e'.facingRight == e.facingRight
    ensures e.isDying ==> e' == e
    ensures !e.isDying ==> e'.dieTime == now
    ensures !e.isDying ==> e' == e.(isDying := true, dieTime := now)
  {
    if e.isDying then e else e.(isDying := true, dieTime := now)
  }

  lemma DieIdempotent(e: Enemy, t1: real, t2: real)
    ensures Die(Die(e, t1), t2) == Die(e, t1)
  {
  }

  /** What a dying enemy's update reports: removal, or the death frame to show. */
  datatype DyingTick = Removed | Frame(index: nat)

  /** Enemy.py lines 33-38 (`update` for a dying enemy): it is removed once
      `die_duration` has elapsed, and otherwise shows the frame for the
      elapsed fraction of the animation, clamped to the last frame. */
  function Dying(e: Enemy, now: real): (t: DyingTick)
    requires e.isDying && e.dieTime <= now
    ensures t.Removed? <==> now - e.dieTime >= DieDuration
    ensures t.Frame? ==> t.index < DieFrames
    ensures t.Frame? ==> t.index as real <= (now - e.dieTime) * 8.0 < t.index as real + 1.0
  {
    var elapsed := now - e.dieTime;
    if elapsed >= DieDuration then Removed
    else
      var i := Trunc(elapsed / DieDuration * DieFrames as real);
      Frame(if i < DieFrames - 1 then i else DieFrames - 1)
  }

  /** What one update does to an enemy that stays: a dying enemy or one
      with a usable path is unchanged; otherwise it re-plans from its cell,
      resetting the cursor, and gets a path exactly when the player's cell is
      reachable. */
  ghost predicate Updated(grid: Grid, e: Enemy, e': Enemy, playerX: real, playerY: real) {
    && (e.isDying || !NeedsReplan(e) ==> e' == e)
    && (!e.isDying && NeedsReplan(e) ==>
          && e' == e.(path := e'.path, cursor := 0)
          && (e'.path.Some? <==> PathFinding.Reachable(grid, CellOf(e.x, e.y), CellOf(playerX, playerY))))
  }

  /** `Enemy.update` without the sub-tile movement: a dying enemy is frozen
      and reports removal once its time is up; a living one re-plans when it
      must and is never removed. */
  method Update(grid: Grid, e: Enemy, playerX: real, playerY: real, now: real)
    returns (removed: bool, e': Enemy)
    ensures e.isDying ==> e' == e && (removed <==> now - e.dieTime >= DieDuration)
    ensures !e.isDying ==> !removed && !e'.isDying && e'.x == e.x && e'.y == e.y
    ensures !e.isDying && !NeedsReplan(e) ==> e' == e
    ensures !e.isDying && NeedsReplan(e) ==>
      e'.cursor == 0 &&
      (e'.path.Some? <==> PathFinding.Reachable(grid, CellOf(e.x, e.y), CellOf(playerX, playerY)))
    ensures Moves(e') && !e'.isDying ==> e'.cursor < |e'.path.value|
    ensures e' == e.(path := e'.path, cursor := e'.cursor)
    ensures Updated(grid, e, e', playerX, playerY)
  {
    if e.isDying {
      removed := now - e.dieTime >= DieDuration;
      e' := e;
    } else {
      e' := Replan(grid, e, playerX, playerY);
      removed := false;
    }
  }

  /** Enemy.py lines 75-78: only a horizontal displacement turns the enemy. */
  function Face(facingRight: bool, moveX: real): bool {
    if moveX > 0.0 then true else if moveX < 0.0 then false else facingRight
  }

  /** Facing after a sequence of per-tick horizontal displacements. */
  function FaceAll(facingRight: bool, moves: seq<real>): bool {
    if |moves| == 0 then facingRight
    else Face(FaceAll(facingRight, moves[..|moves| - 1]), moves[|moves| - 1])
  }

  /** The last non-zero horizontal displacement, if any. */
  function LastHorizontal(moves: seq<real>): Option<real> {
    if |moves| == 0 then None
    else if moves[|moves| - 1] != 0.0 then Some(moves[|moves| - 1])
    else LastHorizontal(moves[..|moves| - 1])
  }

  /** An enemy faces the way its last horizontal move went, and keeps its
      initial facing if it has only ever moved vertically. */
  lemma {:induction false} FacingFollowsLastHorizontalMove(facingRight: bool, moves: seq<real>)
    ensures LastHorizontal(moves).None? ==> FaceAll(facingRight, moves) == facingRight
    ensures LastHorizontal(moves).Some? ==> (FaceAll(facingRight, moves) <==> LastHorizontal(moves).value > 0.0)
  {
    if |moves| > 0 {
      FacingFollowsLastHorizontalMove(facingRight, moves[..|moves| - 1]);
    }
  }
}

=== FILE: gamemap.dfy ===
/**
 The level map (`Map`): a 15 x 14 grid generated with a fixed diagonal
 tunnel from the top-left corner to the hive in the bottom-right corner,
 blocks that may randomly be upgraded from normal (1) to special (2), and
 the hive's state machine.
 */
module GameMap {
  import opened Cells
  import opened Grids
  import PathFinding

  const MapWidth: nat := 15
  const MapHeight: nat := 14

  /** The hive sits in the bottom-right cell, `(width - 1, height - 1)`. */
  const HiveCell: Cell := Cell(MapWidth - 1, MapHeight - 1)

  /** `hive_state`: 0 destroyed, 1 sealed (the initial state), 2 exposed (can be shot). */
  datatype HiveState = Destroyed | Sealed | Exposed {
    /** The integer the source stores. */
    function Code(): nat {
      match this
      case Destroyed => 0
      case Sealed => 1
      case Exposed => 2
    }

    /** `hive_state > 0`: the hive still spawns enemies. */
    predicate Alive() {
      !Destroyed?
    }
  }

  /** `hive_state` stays within {0, 1, 2}, and `> 0` means alive. */
  lemma HiveCodeRange(h: HiveState)
    ensures h.Code() <= 2
    ensures h.Alive() <==> h.Code() > 0
    ensures h.Exposed? <==> h.Code() == 2
  {
  }

  datatype MapState = MapState(grid: Grid, hive: HiveState, enemiesSpawned: nat)

  /** The grid has the map's own dimensions. */
  predicate Standard(g: Grid) {
    Height(g) == MapHeight && Width(g) == MapWidth
  }

  /** The literal layout `generate_map` starts from (rows are `y`, columns `x`). */
  const BaseLayout: seq<seq<int>> := [
    [0, 0, 1, 1, 1, 1, 1, 1, 1, 1, 1, 1, 1, 1, 1],
    [1, 0, 0, 1, 1, 1, 1, 1, 1, 1, 1, 1, 1, 1, 1],
    [1, 1, 0, 0, 1, 1, 1, 1, 1, 1, 1, 1, 1, 1, 1],
    [1, 1, 1, 0, 0, 1, 1, 1, 1, 1, 1, 1, 1, 1, 1],
    [1, 1, 1, 1, 0, 0, 1, 1, 1, 1, 1, 1, 1, 1, 1],
    [1, 1, 1, 1, 1, 0, 0, 1, 1, 1, 1, 1, 1, 1, 1],
    [1, 1, 1, 1, 1, 1, 0, 0, 1, 1, 1, 1, 1, 1, 1],
    [1, 1, 1, 1, 1, 1, 1, 0, 0, 1, 1, 1, 1, 1, 1],
    [1, 1, 1, 1, 1, 1, 1, 1, 0, 0, 1, 1, 1, 1, 1],
    [1, 1, 1, 1, 1, 1, 1, 1, 1, 0, 0, 1, 1, 1, 1],
    [1, 1, 1, 1, 1, 1, 1, 1, 1, 1, 0, 0, 1, 1, 1],
    [1, 1, 1, 1, 1, 1, 1, 1, 1, 1, 1, 0, 0, 1, 1],
    [1, 1, 1, 1, 1, 1, 1, 1, 1, 1, 1, 1, 0, 0, 1],
    [1, 1, 1, 1, 1, 1, 1, 1, 1, 1, 1, 1, 1, 0, 0]
  ]

  /** The tunnel: row `r` is open exactly at columns `r` and `r + 1`. */
  predicate InTunnel(r: int, c: int) {
    c == r || c == r + 1
  }

  lemma BaseLayoutIsTunnel()
    ensures |BaseLayout| == MapHeight
    ensures forall r :: 0 <= r < MapHeight ==> |BaseLayout[r]| == MapWidth
    ensures forall r, c :: 0 <= r < MapHeight && 0 <= c < MapWidth ==>
              BaseLayout[r][c] == (if InTunnel(r, c) then 0 else 1)
  {
    forall r, c | 0 <= r < MapHeight && 0 <= c < MapWidth
      ensures BaseLayout[r][c] == (if InTunnel(r, c) then 0 else 1)
    {
      assert r == 0 || r == 1 || r == 2 || r == 3 || r == 4 || r == 5 || r == 6 || r == 7 || r == 8 || r == 9 || r == 10 || r == 11 || r == 12 || r == 13;
      assert c == 0 || c == 1 || c == 2 || c == 3 || c == 4 || c == 5 || c == 6 || c == 7 || c == 8 || c == 9 || c == 10 || c == 11 || c == 12 || c == 13 || c == 14;
    }
  }

  /** `generate_map`. The source draws `random.random() < 0.3` for every
      normal block; `upgrade(r, c)` stands for that draw at row `r`,
      column `c`. */
  function GenerateMap(upgrade: (int, int) -> bool): (g: Grid)
    ensures Standard(g)
    ensures forall r, c :: 0 <= r < MapHeight && 0 <= c < MapWidth ==>
              (g[r][c] == 0 <==> InTunnel(r, c))
    ensures forall r, c :: 0 <= r < MapHeight && 0 <= c < MapWidth && !InTunnel(r, c) ==>
              g[r][c] == 1 || g[r][c] == 2
    ensures forall r, c :: 0 <= r < MapHeight && 0 <= c < MapWidth ==>
              (g[r][c] == 2 <==> !InTunnel(r, c) && upgrade(r, c))
  {
    BaseLayoutIsTunnel();
    seq(MapHeight, r requires 0 <= r < MapHeight =>
      seq(MapWidth, c requires 0 <= c < MapWidth =>
        if BaseLayout[r][c] == 1 && upgrade(r, c) then 2 else BaseLayout[r][c]))
  }

  /** The hive cell lies on the tunnel, so a freshly generated map is empty there. */
  lemma HiveCellOpen(upgrade: (int, int) -> bool)
    ensures Open(GenerateMap(upgrade), HiveCell)
  {
    assert InTunnel(HiveCell.y, HiveCell.x);
  }

  /** The walk along the tunnel from the hive to the top-left corner: left,
      up, left, up, ... (27 steps). */
  function TunnelWalk(): (p: seq<Cell>)
    ensures |p| == 27
  {
    seq(27, i => if i % 2 == 0 then Cell(13 - i / 2, 13 - i / 2) else Cell(13 - i / 2, 12 - i / 2))
  }

  /** On every generated map, the tunnel connects the hive to `(0, 0)`
      (where the player starts), by a walk no longer than their Manhattan
      distance; no walk can be shorter. */
  lemma TunnelConnectsHiveToOrigin(upgrade: (int, int) -> bool)
    ensures PathFinding.IsPathTo(GenerateMap(upgrade), HiveCell, Cell(0, 0), TunnelWalk())
    ensures |TunnelWalk()| == Manhattan(HiveCell, Cell(0, 0))
  {
    var g := GenerateMap(upgrade);
    var p := TunnelWalk();
    forall i | 0 <= i < |p|
      ensures PathFinding.StepOk(g, HiveCell, p, i)
    {
      assert InTunnel(p[i].y, p[i].x);
      if i > 0 {
        assert PathFinding.Node(HiveCell, p, i) == p[i - 1];
      }
    }
  }

  /** On a freshly generated map, a shortest walk from the hive to `(0, 0)`
      (what the search returns for an enemy just spawned, chasing a player at
      the start position) has exactly 27 steps. */
  lemma FreshMapChaseLength(upgrade: (int, int) -> bool, r: seq<Cell>)
    requires PathFinding.IsPathTo(GenerateMap(upgrade), HiveCell, Cell(0, 0), r)
    requires forall p :: PathFinding.IsPathTo(GenerateMap(upgrade), HiveCell, Cell(0, 0), p) ==> |r| <= |p|
    ensures |r| == 27
  {
    TunnelConnectsHiveToOrigin(upgrade);
    PathFinding.WalkAtLeastManhattan(GenerateMap(upgrade), HiveCell, Cell(0, 0), r);
  }

  /** `Map.destroy_block`: an in-bounds cell becomes empty; out of bounds nothing changes. */
  function DestroyBlock(m: MapState, x: int, y: int): (m': MapState)
    requires Standard(m.grid)
    ensures Standard(m'.grid) && m'.hive == m.hive && m'.enemiesSpawned == m.enemiesSpawned
    ensures 0 <= x < MapWidth && 0 <= y < MapHeight ==> At(m'.grid, Cell(x, y)) == 0
    ensures !(0 <= x < MapWidth && 0 <= y < MapHeight) ==> m' == m
    ensures forall c :: InBounds(m.grid, c) && c != Cell(x, y) ==> At(m'.grid, c) == At(m.grid, c)
  {
    if 0 <= x < MapWidth && 0 <= y < MapHeight then m.(grid := Set(m.grid, Cell(x, y), 0)) else m
  }

  /** `Map.upgrade_hive`: sealed becomes exposed once ten enemies have spawned. */
  function UpgradeHive(m: MapState): (m': MapState)
    ensures m'.grid == m.grid && m'.enemiesSpawned == m.enemiesSpawned
    ensures m'.hive.Exposed? <==> m.hive.Exposed? || (m.hive.Sealed? && m.enemiesSpawned >= 10)
    ensures m.hive.Destroyed? <==> m'.hive.Destroyed?
    ensures m.hive != Sealed ==> m' == m
  {
    if m.enemiesSpawned >= 10 && m.hive.Sealed? then m.(hive := Exposed) else m
  }

  lemma UpgradeHiveIdempotent(m: MapState)
    ensures UpgradeHive(UpgradeHive(m)) == UpgradeHive(m)
  {
  }

  /** `Map.destroy_hive`: the hive is gone and its cell is empty. */
  function DestroyHive(m: MapState): (m': MapState)
    requires Standard(m.grid)
    ensures m'.hive == Destroyed && m'.enemiesSpawned == m.enemiesSpawned
    ensures Standard(m'.grid) && At(m'.grid, HiveCell) == 0
    ensures forall c :: InBounds(m.grid, c) && c != HiveCell ==> At(m'.grid, c) == At(m.grid, c)
  {
    MapState(Set(m.grid, HiveCell, 0), Destroyed, m.enemiesSpawned)
  }

  /** The hive's progress: sealed, then exposed, then destroyed. */
  function Stage(h: HiveState): nat {
    match h
    case Sealed => 0
    case Exposed => 1
    case Destroyed => 2
  }

  /** None of the map operations moves the hive backwards. */
  lemma HiveNeverRegresses(m: MapState, x: int, y: int)
    requires Standard(m.grid)
    ensures Stage(UpgradeHive(m).hive) >= Stage(m.hive)
    ensures Stage(DestroyHive(m).hive) >= Stage(m.hive)
    ensures Stage(DestroyBlock(m, x, y).hive) == Stage(m.hive)
  {
  }
}

=== FILE: games.dfy ===
/**
 The rules of one game (`Game`): starting a game at a difficulty, enemy
 spawning, losing a life, the collision and scoring rules, removing dead
 enemies, and detecting that the level is cleared.
 */
module Games {
  import opened Wrappers
  import opened Cells
  import opened Grids
  import opened GameMap
  import opened Enemies
  import opened Players

  const MaxEnemies: nat := 15
  /** Seconds between two spawns. */
  const SpawnInterval: real := 3.0
  const StartLives: int := 3
  /** Spawns after which the hive becomes exposed. */
  const ExposeAfter: nat := 10
  const EnemyPoints: int := 300
  const HivePoints: int := 1000
  const ClearBonus: int := 5000

  /** The game object. `enemiesSpawned` is the game's own counter, which,
      unlike the map's, survives a restart. */
  datatype Game = Game(
    level: MapState,
    player: Player,
    enemies: seq<Enemy>,
    enemiesSpawned: nat,
    spawnTimer: real,
    score: int,
    lives: int,
    gameOver: bool,
    gameClear: bool,
    difficulty: string,
    speedMultiplier: real)

  /** What every operation below keeps: the map has its standard size, at
      most fifteen enemies exist, and the player is inside the arena. */
  predicate Consistent(g: Game) {
    && Standard(g.level.grid) && |g.enemies| <= MaxEnemies && InArena(g.player)
    && g.enemiesSpawned >= g.level.enemiesSpawned
  }

  // ---------------------------------------------------------------------------
  // Difficulty
  // ---------------------------------------------------------------------------

  /** The difficulty table of `start`: (laser cooldown, enemy speed multiplier). */
  function Settings(difficulty: string): (real, real) {
    if difficulty == "easy" then (2.5, 0.3)
    else if difficulty == "medium" then (3.5, 0.9)
    else (4.5, 1.2)
  }

  /** The three named levels, with any other string treated as hard; a
      harder level has a longer laser cooldown and faster enemies. */
  lemma DifficultyTable(other: string)
    requires other != "easy" && other != "medium"
    ensures Settings("easy") == (2.5, 0.3)
    ensures Settings("medium") == (3.5, 0.9)
    ensures Settings("hard") == (4.5, 1.2) && Settings(other) == Settings("hard")
    ensures Settings("easy").0 < Settings("medium").0 < Settings("hard").0
    ensures Settings("easy").1 < Settings("medium").1 < Settings("hard").1
  {
  }

  /** `Game.start`: a fresh map with a sealed hive, the player reset, no
      enemies, three lives and a zero score, tuned to the difficulty. The
      `upgrade` argument stands for the map's random block upgrades. */
  function Start(g: Game, difficulty: string, upgrade: (int, int) -> bool): (g': Game)
    ensures Consistent(g')
    ensures g'.level.grid == GenerateMap(upgrade) && g'.level.hive == Sealed && g'.level.enemiesSpawned == 0
    ensures g'.enemies == [] && g'.score == 0 && g'.lives == StartLives && !g'.gameOver && !g'.gameClear
    ensures g'.player.x == 0.0 && g'.player.y == 0.0 && g'.player.lasers == []
    ensures (g'.player.laserCooldown, g'.speedMultiplier) == Settings(difficulty)
    ensures g'.enemiesSpawned == g.enemiesSpawned && g'.difficulty == difficulty
    ensures g'.spawnTimer == 0.0 && g'.player == Reset(g.player).(laserCooldown := Settings(difficulty).0)
  {
    var (cooldown, multiplier) := Settings(difficulty);
    ResetInArena(g.player);
    Game(MapState(GenerateMap(upgrade), Sealed, 0),
         Reset(g.player).(laserCooldown := cooldown),
         [], g.enemiesSpawned, 0.0, 0, StartLives, false, false, difficulty, multiplier)
  }

  // ---------------------------------------------------------------------------
  // Spawning
  // ---------------------------------------------------------------------------

  /** The spawn gate of `spawn_enemy`. */
  predicate SpawnDue(g: Game, now: real) {
    now - g.spawnTimer >= SpawnInterval && |g.enemies| < MaxEnemies && g.level.hive.Alive()
  }

  /** `Game.spawn_enemy`: when due, one enemy appears at the hive, both spawn
      counters advance and the hive may become exposed; otherwise nothing
      changes. */
  function SpawnEnemy(g: Game, now: real): (g': Game)
    ensures SpawnDue(g, now) ==>
      && |g'.enemies| == |g.enemies| + 1 && g'.enemies[..|g.enemies|] == g.enemies
      && g'.enemies[|g.enemies|] == Spawn(HiveCell.x as real, HiveCell.y as real, g.speedMultiplier)
      && g'.spawnTimer == now
      && g'.enemiesSpawned == g.enemiesSpawned + 1
      && g'.level.enemiesSpawned == g.level.enemiesSpawned + 1
    ensures !SpawnDue(g, now) ==> g' == g
    ensures |g'.enemies| <= MaxEnemies || g' == g
    ensures g'.level.grid == g.level.grid && g'.player == g.player && g'.score == g.score
    ensures g'.level.hive.Exposed? <==>
      || g.level.hive.Exposed?
      || (SpawnDue(g, now) && g.level.hive.Sealed? && g.enemiesSpawned + 1 >= ExposeAfter
          && g.level.enemiesSpawned + 1 >= ExposeAfter)
    ensures g'.level.hive.Destroyed? <==> g.level.hive.Destroyed?
    ensures g' == g.(enemies := g'.enemies, spawnTimer := g'.spawnTimer, enemiesSpawned := g'.enemiesSpawned,
                     level := g'.level)
  {
    if SpawnDue(g, now) then
      var e := Spawn(HiveCell.x as real, HiveCell.y as real, g.speedMultiplier);
      var spawned := g.enemiesSpawned + 1;
      var level := g.level.(enemiesSpawned := g.level.enemiesSpawned + 1);
      g.(enemies := g.enemies + [e],
         spawnTimer := now,
         enemiesSpawned := spawned,
         level := if spawned >= ExposeAfter then UpgradeHive(level) else level)
    else g
  }

  /** Spawning keeps the game consistent: in particular the count of enemies
      never exceeds fifteen. */
  lemma SpawnKeepsConsistent(g: Game, now: real)
    requires Consistent(g)
    ensures Consistent(SpawnEnemy(g, now))
  {
  }

  /** The game's spawn counter is never behind the map's (both start at zero
      and grow together), so the map's counter alone decides: the hive
      becomes exposed on the spawn that brings it to ten, and not before. */
  lemma HiveExposedOnTenthSpawn(g: Game, now: real)
    requires g.level.hive.Sealed? && g.enemiesSpawned >= g.level.enemiesSpawned
    requires SpawnDue(g, now)
    ensures SpawnEnemy(g, now).level.hive.Exposed? <==> g.level.enemiesSpawned + 1 >= ExposeAfter
  {
  }

  // ---------------------------------------------------------------------------
  // Losing a life
  // ---------------------------------------------------------------------------

  /** `Game.player_hit`: one life is lost; at zero lives the game is over,
      otherwise every enemy is removed and the player starts again. */
  function PlayerHit(g: Game): (g': Game)
    ensures g'.lives == g.lives - 1
    ensures g'.lives <= 0 ==> g'.gameOver && g'.enemies == g.enemies && g'.player == g.player
    ensures g'.lives > 0 ==> g'.gameOver == g.gameOver && g'.enemies == [] && g'.player == Reset(g.player)
    ensures g'.level == g.level && g'.score == g.score
    ensures g' == g.(lives := g'.lives, gameOver := g'.gameOver, enemies := g'.enemies, player := g'.player)
  {
    var lives := g.lives - 1;
    if lives <= 0 then g.(lives := lives, gameOver := true)
    else g.(lives := lives, enemies := [], player := Reset(g.player))
  }

  lemma PlayerHitKeepsConsistent(g: Game)
    requires Consistent(g)
    ensures Consistent(PlayerHit(g))
  {
    ResetInArena(g.player);
  }

  /** Starting from three lives, the third hit ends the game and the first
      two do not. */
  lemma ThirdHitEndsGame(g: Game)
    requires g.lives == StartLives && !g.gameOver
    ensures !PlayerHit(g).gameOver && !PlayerHit(PlayerHit(g)).gameOver
    ensures PlayerHit(PlayerHit(PlayerHit(g))).gameOver
  {
  }

  // ---------------------------------------------------------------------------
  // Collisions
  // ---------------------------------------------------------------------------

  /** Game.py lines 138-140 (`check_collisions`): every enemy of the
      snapshot is checked against the player's current position, which a hit resets. */
  function ContactPass(g: Game, snapshot: seq<Enemy>): (g': Game)
    ensures g'.level == g.level && g'.score == g.score
    ensures g.lives - |snapshot| <= g'.lives <= g.lives
    ensures (forall i :: 0 <= i < |snapshot| ==> !Overlap(g.player.x, g.player.y, snapshot[i].x, snapshot[i].y))
              ==> g' == g
    ensures (exists i :: 0 <= i < |snapshot| && Overlap(g.player.x, g.player.y, snapshot[i].x, snapshot[i].y))
              ==> g'.lives < g.lives
    ensures |g'.enemies| <= |g.enemies|
    ensures g'.player == g.player || g'.player == Reset(g.player)
    ensures g' == g.(lives := g'.lives, gameOver := g'.gameOver, enemies := g'.enemies, player := g'.player)
    ensures g'.lives == g.lives ==> g' == g
    ensures g'.lives < g.lives && g'.lives <= 0 ==> g'.gameOver
    ensures g'.lives < g.lives && g'.lives > 0 ==>
              g'.enemies == [] && g'.player == Reset(g.player) && g'.gameOver == g.gameOver
    decreases |snapshot|
  {
    if |snapshot| == 0 then g
    else
      var e := snapshot[0];
      var g1 := if Overlap(g.player.x, g.player.y, e.x, e.y) then PlayerHit(g) else g;
      assert forall i :: 1 <= i < |snapshot| ==> snapshot[1..][i - 1] == snapshot[i];
      ContactPass(g1, snapshot[1..])
  }

  /** The first enemy a laser overlaps, if any. */
  function FirstHit(l: Laser, es: seq<Enemy>): (k: Option<nat>)
    ensures k.Some? ==> k.value < |es| && CollidesWith(l, es[k.value].x, es[k.value].y)
    ensures k.Some? ==> forall j :: 0 <= j < k.value ==> !CollidesWith(l, es[j].x, es[j].y)
    ensures k.None? <==> forall j :: 0 <= j < |es| ==> !CollidesWith(l, es[j].x, es[j].y)
  {
    if |es| == 0 then None
    else if CollidesWith(l, es[0].x, es[0].y) then Some(0)
    else match FirstHit(l, es[1..])
      case None => None
      case Some(k) => Some(k + 1)
  }

  /** Enemy lists that agree on every position. */
  predicate SamePlaces(es: seq<Enemy>, es': seq<Enemy>) {
    |es| == |es'| && forall i :: 0 <= i < |es| ==> es'[i].x == es[i].x && es'[i].y == es[i].y
  }

  /** Lasers that overlap no enemy, in order. */
  function Misses(ls: seq<Laser>, es: seq<Enemy>): seq<Laser> {
    if |ls| == 0 then []
    else (if FirstHit(ls[0], es).None? then [ls[0]] else []) + Misses(ls[1..], es)
  }

  /** Which lasers miss depends only on where the enemies are. */
  lemma {:induction false} MissesDependOnPlaces(ls: seq<Laser>, es: seq<Enemy>, es': seq<Enemy>)
    requires SamePlaces(es, es')
    ensures Misses(ls, es) == Misses(ls, es')
  {
    if |ls| > 0 {
      MissesDependOnPlaces(ls[1..], es, es');
      assert FirstHit(ls[0], es).None? <==> FirstHit(ls[0], es').None?;
    }
  }

  /** Number of enemies in their dying state. */
  function DyingCount(es: seq<Enemy>): nat {
    if |es| == 0 then 0 else DyingCount(es[..|es| - 1]) + (if es[|es| - 1].isDying then 1 else 0)
  }

  /** Killing one enemy adds at most one to the dying count. */
  lemma {:induction false} DieCountsOnce(es: seq<Enemy>, k: nat, now: real)
    requires k < |es|
    ensures DyingCount(es) <= DyingCount(es[k := Die(es[k], now)]) <= DyingCount(es) + 1
  {
    var es' := es[k := Die(es[k], now)];
    var n := |es| - 1;
    assert es'[..n] == if k < n then es[..n][k := Die(es[k], now)] else es[..n];
    if k < n {
      DieCountsOnce(es[..n], k, now);
    }
  }

  /** Game.py lines 143-149: each laser of the snapshot kills the first enemy it
      overlaps (a dying one is hit again) and is used up; lasers that hit
      nothing are kept. The result is the new enemy list, the kept lasers
      and the number of hits. */
  function LaserPass(es: seq<Enemy>, ls: seq<Laser>, now: real): (r: (seq<Enemy>, seq<Laser>, nat))
    ensures SamePlaces(es, r.0)
    ensures r.1 == Misses(ls, es)
    ensures |r.1| + r.2 == |ls|
    ensures DyingCount(es) <= DyingCount(r.0) <= DyingCount(es) + r.2
    ensures forall i :: 0 <= i < |es| ==> r.0[i] == es[i] || r.0[i] == Die(es[i], now)
    decreases |ls|
  {
    if |ls| == 0 then (es, [], 0)
    else
      match FirstHit(ls[0], es)
      case None =>
        var (es', kept, hits) := LaserPass(es, ls[1..], now);
        (es', [ls[0]] + kept, hits)
      case Some(k) =>
        var es1 := es[k := Die(es[k], now)];
        DieCountsOnce(es, k, now);
        var (es', kept, hits) := LaserPass(es1, ls[1..], now);
        MissesDependOnPlaces(ls[1..], es, es1);
        (es', kept, hits + 1)
  }

  /** Which enemy a laser hits first depends only on where the enemies are. */
  lemma {:induction false} FirstHitDependsOnPlaces(l: Laser, es: seq<Enemy>, es': seq<Enemy>)
    requires SamePlaces(es, es')
    ensures FirstHit(l, es) == FirstHit(l, es')
  {
    if |es| > 0 {
      FirstHitDependsOnPlaces(l, es[1..], es'[1..]);
    }
  }

  /** The enemy list after one laser: its first hit, if any, has had `die` applied. */
  function Strike(l: Laser, es: seq<Enemy>, now: real): (es': seq<Enemy>)
    ensures SamePlaces(es, es')
    ensures FirstHit(l, es).Some? ==> es' == es[FirstHit(l, es).value := Die(es[FirstHit(l, es).value], now)]
    ensures FirstHit(l, es).None? ==> es' == es
  {
    match FirstHit(l, es)
    case None => es
    case Some(k) => es[k := Die(es[k], now)]
  }

  /** The enemies after a pass are those after the rest of the pass, run on
      the list the first laser left. */
  lemma LaserPassUnfold(es: seq<Enemy>, ls: seq<Laser>, now: real)
    requires |ls| > 0
    ensures LaserPass(es, ls, now).0 == LaserPass(Strike(ls[0], es, now), ls[1..], now).0
  {
  }

  /** The enemy a laser hits first ends the pass dying: `die` has been
      applied to it (killing it now, or leaving an already dying one alone). */
  lemma {:induction false} LaserPassKills(es: seq<Enemy>, ls: seq<Laser>, now: real, j: nat)
    requires j < |ls| && FirstHit(ls[j], es).Some?
    ensures var k := FirstHit(ls[j], es).value;
            LaserPass(es, ls, now).0[k] == Die(es[k], now)
    decreases |ls|
  {
    var k := FirstHit(ls[j], es).value;
    var es1 := Strike(ls[0], es, now);
    LaserPassUnfold(es, ls, now);
    FirstHitDependsOnPlaces(ls[j], es, es1);
    DieIdempotent(es[k], now, now);
    if j > 0 {
      assert ls[j] == ls[1..][j - 1];
      LaserPassKills(es1, ls[1..], now, j - 1);
    }
  }

  /** An enemy that no laser hits first comes out of the pass unchanged. */
  lemma {:induction false} LaserPassSpares(es: seq<Enemy>, ls: seq<Laser>, now: real, i: nat)
    requires i < |es|
    requires forall j :: 0 <= j < |ls| ==> FirstHit(ls[j], es) != Some(i)
    ensures LaserPass(es, ls, now).0[i] == es[i]
    decreases |ls|
  {
    if |ls| > 0 {
      var tail := ls[1..];
      var es1 := Strike(ls[0], es, now);
      LaserPassUnfold(es, ls, now);
      assert FirstHit(ls[0], es) != Some(i);
      forall j | 0 <= j < |tail|
        ensures FirstHit(tail[j], es1) != Some(i)
      {
        assert tail[j] == ls[j + 1];
        FirstHitDependsOnPlaces(tail[j], es, es1);
      }
      LaserPassSpares(es1, tail, now, i);
    }
  }

  /** The first laser that overlaps the hive, if any. */
  function FirstHiveHit(ls: seq<Laser>): (k: Option<nat>)
    ensures k.Some? ==> k.value < |ls| && CollidesWithHive(ls[k.value], HiveCell.x, HiveCell.y)
    ensures k.Some? ==> forall j :: 0 <= j < k.value ==> !CollidesWithHive(ls[j], HiveCell.x, HiveCell.y)
    ensures k.None? <==> forall j :: 0 <= j < |ls| ==> !CollidesWithHive(ls[j], HiveCell.x, HiveCell.y)
  {
    if |ls| == 0 then None
    else if CollidesWithHive(ls[0], HiveCell.x, HiveCell.y) then Some(0)
    else match FirstHiveHit(ls[1..])
      case None => None
      case Some(k) => Some(k + 1)
  }

  /** Game.py lines 152-158: an exposed hive is destroyed by the first laser that
      overlaps it, which is used up, for 1000 points; at most one hit. */
  function HiveShot(g: Game): (g': Game)
    requires Standard(g.level.grid)
    ensures g.level.hive.Exposed? && FirstHiveHit(g.player.lasers).Some? ==>
      var k := FirstHiveHit(g.player.lasers).value;
      && g'.level == DestroyHive(g.level)
      && g'.player.lasers == g.player.lasers[..k] + g.player.lasers[k + 1..]
      && g'.score == g.score + HivePoints
    ensures !(g.level.hive.Exposed? && FirstHiveHit(g.player.lasers).Some?) ==> g' == g
    ensures g'.enemies == g.enemies && g'.lives == g.lives
    ensures g'.player == g.player.(lasers := g'.player.lasers)
    ensures g' == g.(level := g'.level, player := g'.player, score := g'.score)
  {
    if g.level.hive.Exposed? then
      match FirstHiveHit(g.player.lasers)
      case None => g
      case Some(k) =>
        g.(level := DestroyHive(g.level),
           player := g.player.(lasers := g.player.lasers[..k] + g.player.lasers[k + 1..]),
           score := g.score + HivePoints)
    else g
  }

  /** The enemies after a laser pass: the one each laser hits first has had
      `die` applied, and every other enemy is as it was. */
  predicate KilledByLasers(es: seq<Enemy>, ls: seq<Laser>, es': seq<Enemy>, now: real) {
    && |es'| == |es|
    && (forall j :: 0 <= j < |ls| && FirstHit(ls[j], es).Some? ==>
          es'[FirstHit(ls[j], es).value] == Die(es[FirstHit(ls[j], es).value], now))
    && (forall i: nat :: (i < |es| && forall j :: 0 <= j < |ls| ==> FirstHit(ls[j], es) != Some(i)) ==>
          es'[i] == es[i])
  }

  /** Game.py lines 143-149 as a game step: the laser pass over the player's
      lasers, keeping the misses and scoring 300 per hit. */
  function LaserStage(g: Game, now: real): (g': Game)
    ensures var hits := |g.player.lasers| - |Misses(g.player.lasers, g.enemies)|;
            && g' == g.(enemies := g'.enemies, player := g.player.(lasers := Misses(g.player.lasers, g.enemies)),
                        score := g.score + EnemyPoints * hits)
            && SamePlaces(g.enemies, g'.enemies)
            && DyingCount(g'.enemies) <= DyingCount(g.enemies) + hits
            && KilledByLasers(g.enemies, g.player.lasers, g'.enemies, now)
  {
    var (es, kept, hits) := LaserPass(g.enemies, g.player.lasers, now);
    forall j | 0 <= j < |g.player.lasers| && FirstHit(g.player.lasers[j], g.enemies).Some?
      ensures es[FirstHit(g.player.lasers[j], g.enemies).value]
           == Die(g.enemies[FirstHit(g.player.lasers[j], g.enemies).value], now)
    {
      LaserPassKills(g.enemies, g.player.lasers, now, j);
    }
    forall i: nat | i < |g.enemies| &&
        forall j :: 0 <= j < |g.player.lasers| ==> FirstHit(g.player.lasers[j], g.enemies) != Some(i)
      ensures es[i] == g.enemies[i]
    {
      LaserPassSpares(g.enemies, g.player.lasers, now, i);
    }
    g.(enemies := es, player := g.player.(lasers := kept), score := g.score + EnemyPoints * hits)
  }

  /** `Game.check_collisions`: enemy contacts cost lives, each laser kills at
      most one enemy for 300 points, and the exposed hive can be destroyed
      once for 1000 points. */
  function CheckCollisions(g: Game, now: real): (g': Game)
    requires Standard(g.level.grid)
    ensures var g1 := ContactPass(g, g.enemies);
            var hits := |g1.player.lasers| - |Misses(g1.player.lasers, g1.enemies)|;
            && (g'.score == g.score + EnemyPoints * hits || g'.score == g.score + EnemyPoints * hits + HivePoints)
            && (g'.score == g.score + EnemyPoints * hits + HivePoints <==>
                  g.level.hive.Exposed? && g'.level.hive.Destroyed?)
            && SamePlaces(g1.enemies, g'.enemies)
            && DyingCount(g'.enemies) <= DyingCount(g1.enemies) + hits
            && KilledByLasers(g1.enemies, g1.player.lasers, g'.enemies, now)
            && g'.lives == g1.lives && g'.gameOver == g1.gameOver
    ensures g'.lives < g.lives && g'.lives <= 0 ==> g'.gameOver
    ensures g'.lives < g.lives && g'.lives > 0 ==>
              g'.enemies == [] && g'.player == Reset(g.player) && g'.gameOver == g.gameOver
    ensures (exists i :: 0 <= i < |g.enemies| && Overlap(g.player.x, g.player.y, g.enemies[i].x, g.enemies[i].y))
              ==> g'.lives < g.lives
    ensures g'.level.hive == g.level.hive || (g.level.hive.Exposed? && g'.level.hive.Destroyed?)
    ensures g'.lives <= g.lives && |g'.enemies| <= |g.enemies|
    ensures g'.level.enemiesSpawned == g.level.enemiesSpawned
    ensures var g1 := ContactPass(g, g.enemies);
            var kept := Misses(g1.player.lasers, g1.enemies);
            && (g'.level == g.level || (g.level.hive.Exposed? && g'.level == DestroyHive(g.level)))
            && g'.player == g1.player.(lasers := g'.player.lasers)
            && (g'.player.lasers == kept || exists k :: 0 <= k < |kept| && g'.player.lasers == kept[..k] + kept[k + 1..])
    ensures g' == g.(level := g'.level, player := g'.player, enemies := g'.enemies, lives := g'.lives,
                     gameOver := g'.gameOver, score := g'.score)
  {
    HiveShot(LaserStage(ContactPass(g, g.enemies), now))
  }

  lemma CheckCollisionsKeepsConsistent(g: Game, now: real)
    requires Consistent(g)
    ensures Consistent(CheckCollisions(g, now))
  {
    var g1 := ContactPass(g, g.enemies);
    if g1.player != g.player {
      assert (2.0 * 0.0).Floor == 0;
    }
  }

  // ---------------------------------------------------------------------------
  // Enemy removal and the end of the level
  // ---------------------------------------------------------------------------

  /** A dying enemy whose animation has run out. */
  predicate Expired(e: Enemy, now: real) {
    e.isDying && now - e.dieTime >= DieDuration
  }

  /** The enemies that survive the tick, in order. */
  function Survivors(es: seq<Enemy>, now: real): seq<Enemy> {
    if |es| == 0 then []
    else Survivors(es[..|es| - 1], now) + (if Expired(es[|es| - 1], now) then [] else [es[|es| - 1]])
  }

  /** Two records of the same enemy, before and after its update: only the
      path and its cursor may differ. */
  predicate SameBody(a: Enemy, b: Enemy) {
    a == b.(path := a.path, cursor := a.cursor)
  }

  /** Line 114 of `Game.update`: every enemy updates, and those whose death
      animation has run out are dropped; the others stay, in order, with at
      most a fresh path. */
  method UpdateEnemies(grid: Grid, es: seq<Enemy>, playerX: real, playerY: real, now: real)
    returns (kept: seq<Enemy>)
    ensures |kept| == |Survivors(es, now)|
    ensures forall j :: 0 <= j < |kept| ==> SameBody(kept[j], Survivors(es, now)[j])
    ensures forall j :: 0 <= j < |kept| ==> Updated(grid, Survivors(es, now)[j], kept[j], playerX, playerY)
  {
    kept := [];
    var i := 0;
    while i < |es|
      invariant 0 <= i <= |es|
      invariant |kept| == |Survivors(es[..i], now)|
      invariant forall j :: 0 <= j < |kept| ==> SameBody(kept[j], Survivors(es[..i], now)[j])
      invariant forall j :: 0 <= j < |kept| ==> Updated(grid, Survivors(es[..i], now)[j], kept[j], playerX, playerY)
    {
      var removed, e' := Update(grid, es[i], playerX, playerY, now);
      assert es[..i + 1][..i] == es[..i];
      assert removed <==> Expired(es[i], now);
      if !removed {
        kept := kept + [e'];
      }
      i := i + 1;
    }
    assert es[..|es|] == es;
  }

  /** Only expired enemies are dropped: a living enemy always survives. */
  lemma {:induction false} LivingSurvive(es: seq<Enemy>, now: real, i: nat)
    requires i < |es| && !es[i].isDying
    ensures es[i] in Survivors(es, now)
    ensures |Survivors(es, now)| <= |es|
  {
    var n := |es| - 1;
    if i < n {
      assert es[..n][i] == es[i];
      LivingSurvive(es[..n], now, i);
    } else {
      SurvivorsShorter(es[..n], now);
    }
  }

  lemma {:induction false} SurvivorsShorter(es: seq<Enemy>, now: real)
    ensures |Survivors(es, now)| <= |es|
  {
    if |es| > 0 {
      SurvivorsShorter(es[..|es| - 1], now);
    }
  }

  /** Game.py lines 127-129 (`update`): with the hive destroyed and no enemy left the level is
      cleared, for a 5000-point bonus. */
  function CheckClear(g: Game): (g': Game)
    ensures g'.gameClear <==> g.gameClear || (g.level.hive.Destroyed? && |g.enemies| == 0)
    ensures g'.score == g.score + (if g.level.hive.Destroyed? && |g.enemies| == 0 then ClearBonus else 0)
    ensures g' == g.(gameClear := g'.gameClear, score := g'.score)
  {
    if g.level.hive.Destroyed? && |g.enemies| == 0 then g.(gameClear := true, score := g.score + ClearBonus)
    else g
  }

  /** While the hive stands, the level cannot be cleared. */
  lemma NoClearWhileHiveStands(g: Game)
    requires g.level.hive.Alive() && !g.gameClear
    ensures CheckClear(g) == g
  {
  }
}

=== FILE: grids.dfy ===
/**
 The tile grid and the grid helpers of the game object: `can_dig`,
 `destroy_block` (with scoring) and `can_move`. Cell values are 0 (empty),
 1 (normal block) and 2 (special block).
 */
module Grids {
  import opened Cells

  /** A grid as the source indexes it: `grid[y][x]`, at least one row, every
      row as wide as `grid[0]` (the width the bounds checks read). */
  type Grid = g: seq<seq<int>> | Rectangular(g) witness [[0]]

  predicate Rectangular(g: seq<seq<int>>) {
    |g| > 0 && forall r :: 0 <= r < |g| ==> |g[r]| == |g[0]|
  }

  function Width(g: Grid): nat {
    |g[0]|
  }

  function Height(g: Grid): nat {
    |g|
  }

  predicate InBounds(g: Grid, c: Cell) {
    0 <= c.x < Width(g) && 0 <= c.y < Height(g)
  }

  function At(g: Grid, c: Cell): int
    requires InBounds(g, c)
  {
    g[c.y][c.x]
  }

  /** A cell the path finder may step on: inside the grid and empty. */
  predicate Open(g: Grid, c: Cell) {
    InBounds(g, c) && At(g, c) == 0
  }

  /** The grid with cell `c` set to `v`; every other cell is unchanged. */
  function Set(g: Grid, c: Cell, v: int): (g': Grid)
    requires InBounds(g, c)
    ensures Width(g') == Width(g) && Height(g') == Height(g)
    ensures At(g', c) == v
    ensures forall d :: InBounds(g, d) && d != c ==> At(g', d) == At(g, d)
  {
    g[c.y := g[c.y][c.x := v]]
  }

  /** The cell a pair of float coordinates denotes, after `int()` on each. */
  function CellOf(x: real, y: real): Cell {
    Cell(Trunc(x), Trunc(y))
  }

  /** `Game.can_dig`: the truncated cell lies in the grid and holds a block,
      so it is worth points when destroyed. */
  predicate CanDig(g: Grid, x: real, y: real)
    ensures CanDig(g, x, y) ==> InBounds(g, CellOf(x, y)) && !Open(g, CellOf(x, y))
    ensures CanDig(g, x, y) ==> BlockPoints(At(g, CellOf(x, y))) > 0
  {
    var c := CellOf(x, y);
    InBounds(g, c) && (At(g, c) == 1 || At(g, c) == 2)
  }

  /** `Game.can_move`: the truncated cell lies in the grid and is empty. A
      walkable cell is never diggable, a cell outside the grid is neither,
      and a cell of the map's three kinds is one or the other. */
  predicate CanMove(g: Grid, x: real, y: real)
    ensures CanMove(g, x, y) ==> InBounds(g, CellOf(x, y)) && !CanDig(g, x, y)
    ensures !InBounds(g, CellOf(x, y)) ==> !CanMove(g, x, y) && !CanDig(g, x, y)
    ensures InBounds(g, CellOf(x, y)) && 0 <= At(g, CellOf(x, y)) <= 2 ==> CanMove(g, x, y) || CanDig(g, x, y)
  {
    Open(g, CellOf(x, y))
  }

  /** Truncating the coordinates before asking (as `Player.move` and
      `destroy_block` do) gives the same answers. */
  lemma TruncateFirst(g: Grid, x: real, y: real)
    ensures CellOf(Trunc(x) as real, Trunc(y) as real) == CellOf(x, y)
    ensures CanMove(g, Trunc(x) as real, Trunc(y) as real) <==> CanMove(g, x, y)
    ensures CanDig(g, Trunc(x) as real, Trunc(y) as real) <==> CanDig(g, x, y)
  {
  }

  /** Points for destroying a block of the given kind; 0 for anything else. */
  function BlockPoints(v: int): nat {
    if v == 1 then 100 else if v == 2 then 300 else 0
  }

  /** `Game.destroy_block`: a diggable cell becomes empty and the score grows
      by its points; otherwise nothing changes. */
  function DestroyBlock(g: Grid, score: int, x: real, y: real): (r: (Grid, int))
    ensures CanDig(g, x, y) ==>
      && InBounds(g, CellOf(x, y))
      && r.0 == Set(g, CellOf(x, y), 0)
      && r.1 == score + (if At(g, CellOf(x, y)) == 1 then 100 else 300)
    ensures !CanDig(g, x, y) ==> r == (g, score)
    ensures Width(r.0) == Width(g) && Height(r.0) == Height(g)
    ensures forall d :: InBounds(g, d) && d != CellOf(x, y) ==> At(r.0, d) == At(g, d)
  {
    var c := CellOf(x, y);
    if CanDig(g, x, y) then (Set(g, c, 0), score + BlockPoints(At(g, c))) else (g, score)
  }

  /** After a dig, the target cell can be walked on, and the score never drops. */
  lemma DestroyBlockOpensCell(g: Grid, score: int, x: real, y: real)
    requires CanDig(g, x, y)
    ensures CanMove(DestroyBlock(g, score, x, y).0, x, y)
    ensures !CanDig(DestroyBlock(g, score, x, y).0, x, y)
    ensures DestroyBlock(g, score, x, y).1 > score
  {
  }

  /** Digging is idempotent: a second dig at the same place changes nothing. */
  lemma DestroyBlockIdempotent(g: Grid, score: int, x: real, y: real)
    ensures var (g1, s1) := DestroyBlock(g, score, x, y);
            DestroyBlock(g1, s1, x, y) == (g1, s1)
  {
  }
}

=== FILE: pathfinding.dfy ===
/**
 The enemies' A* search (`Enemy.find_path_to_player`): a 4-connected grid,
 unit step cost, Manhattan heuristic, an open set ordered by the tuple
 `(f, (x, y))`, no closed set, and a node re-opened whenever its `g`
 strictly improves. The result is `None` when the goal cannot be reached,
 `[]` when start and goal coincide, and otherwise the cells from the first
 step up to and including the goal.
 */
module PathFinding {
  import opened Wrappers
  import opened Cells
  import opened Grids

  // ---------------------------------------------------------------------------
  // Walks: the reference notion of "path" that the search is proved against
  // ---------------------------------------------------------------------------

  /** The `i`-th node of the route `start, p[0], p[1], ...`. */
  function Node(start: Cell, p: seq<Cell>, i: nat): Cell
    requires i <= |p|
  {
    if i == 0 then start else p[i - 1]
  }

  /** The last node of the route; `start` for the empty path. */
  function End(start: Cell, p: seq<Cell>): Cell {
    Node(start, p, |p|)
  }

  /** `p` lists the steps of a walk from `start`: every step is an open cell
      4-adjacent to the node before it. `start` itself need not be open. */
  ghost predicate IsWalk(g: Grid, start: Cell, p: seq<Cell>) {
    forall i :: 0 <= i < |p| ==> StepOk(g, start, p, i)
  }

  /** Step `i` of the walk enters an open cell adjacent to the node before it. */
  ghost predicate StepOk(g: Grid, start: Cell, p: seq<Cell>, i: nat)
    requires i < |p|
  {
    Open(g, p[i]) && Adjacent(Node(start, p, i), p[i])
  }

  ghost predicate IsPathTo(g: Grid, start: Cell, goal: Cell, p: seq<Cell>) {
    IsWalk(g, start, p) && End(start, p) == goal
  }

  ghost predicate Reachable(g: Grid, start: Cell, goal: Cell) {
    exists p :: IsPathTo(g, start, goal, p)
  }

  /** Along a walk to `goal`, the heuristic never overestimates the rest. */
  lemma {:induction false} HeuristicAdmissible(g: Grid, start: Cell, goal: Cell, p: seq<Cell>, i: nat)
    requires IsPathTo(g, start, goal, p)
    requires i <= |p|
    ensures i + Manhattan(Node(start, p, i), goal) <= |p|
    decreases |p| - i
  {
    if i < |p| {
      assert StepOk(g, start, p, i);
      assert Adjacent(Node(start, p, i), Node(start, p, i + 1));
      ManhattanStep(Node(start, p, i), Node(start, p, i + 1), goal);
      HeuristicAdmissible(g, start, goal, p, i + 1);
    }
  }

  /** No walk is shorter than the Manhattan distance it covers. */
  lemma WalkAtLeastManhattan(g: Grid, start: Cell, goal: Cell, p: seq<Cell>)
    requires IsPathTo(g, start, goal, p)
    ensures Manhattan(start, goal) <= |p|
  {
    HeuristicAdmissible(g, start, goal, p, 0);
  }

  // ---------------------------------------------------------------------------
  // The open set: Python's PriorityQueue of (f, (x, y)) tuples
  // ---------------------------------------------------------------------------

  datatype Entry = Entry(f: int, cell: Cell)

  /** Python's tuple order on `(f, (x, y))`. */
  predicate EntryLe(a: Entry, b: Entry) {
    || a.f < b.f
    || (a.f == b.f && a.cell.x < b.cell.x)
    || (a.f == b.f && a.cell.x == b.cell.x && a.cell.y <= b.cell.y)
  }

  /** `open_set.get()`: remove and return a least entry. */
  method PopMin(q: seq<Entry>) returns (i: nat, e: Entry, rest: seq<Entry>)
    requires |q| > 0
    ensures i < |q| && e == q[i] && rest == q[..i] + q[i + 1..]
    ensures forall k :: 0 <= k < |q| ==> EntryLe(e, q[k])
  {
    i := 0;
    var j := 1;
    while j < |q|
      invariant 1 <= j <= |q| && i < j
      invariant forall k :: 0 <= k < j ==> EntryLe(q[i], q[k])
    {
      if !EntryLe(q[i], q[j]) {
        i := j;
      }
      j := j + 1;
    }
    e := q[i];
    rest := q[..i] + q[i + 1..];
  }

  // ---------------------------------------------------------------------------
  // Search state and the relaxation of one neighbour
  // ---------------------------------------------------------------------------

  datatype Search = Search(open: seq<Entry>, g: map<Cell, nat>, cameFrom: map<Cell, Cell>)

  /** Enemy.py lines 113-128 for one neighbour `m` of the expanded cell `cur`: skip it
      unless it is open and its `g` strictly improves; otherwise record the
      back-pointer, the new `g`, and push `(g + h, m)`. */
  function Relax(grid: Grid, goal: Cell, s: Search, cur: Cell, m: Cell): (r: Search)
    requires cur in s.g
    ensures Open(grid, m) ==> m in r.g && r.g[m] <= s.g[cur] + 1
    ensures s.g.Keys <= r.g.Keys && forall n :: n in s.g ==> r.g[n] <= s.g[n]
    ensures forall n :: n in r.g && n != m ==> n in s.g && r.g[n] == s.g[n]
    ensures r.g == s.g ==> r == s
    ensures r != s ==> && Open(grid, m) && r.g[m] == s.g[cur] + 1 && r.cameFrom == s.cameFrom[m := cur]
                       && r.open == s.open + [Entry(r.g[m] + Manhattan(goal, m), m)]
  {
    var tentative := s.g[cur] + 1;
    if Open(grid, m) && (m !in s.g || tentative < s.g[m]) then
      Search(s.open + [Entry(tentative + Manhattan(goal, m), m)],
             s.g[m := tentative], s.cameFrom[m := cur])
    else
      s
  }

  /** The back-pointers always lead to a strictly smaller `g`. */
  ghost predicate ChainOk(g: map<Cell, nat>, cameFrom: map<Cell, Cell>) {
    forall n :: n in cameFrom ==> n in g && cameFrom[n] in g && g[cameFrom[n]] < g[n]
  }

  /** The structural invariant of the search state. */
  ghost predicate Valid(grid: Grid, start: Cell, goal: Cell, s: Search) {
    && start in s.g && s.g[start] == 0 && start !in s.cameFrom
    && (forall n :: n in s.g ==> n == start || n in s.cameFrom)
    && ChainOk(s.g, s.cameFrom)
    && (forall n :: n in s.cameFrom ==> Open(grid, n) && Adjacent(s.cameFrom[n], n))
    && (forall k :: 0 <= k < |s.open| ==> s.open[k].cell in s.g)
    // every entry is at least as pessimistic as the current g of its cell;
    // the initial entry (0, start) is the one exception
    && (forall k :: 0 <= k < |s.open| ==>
          s.open[k].cell == start || s.open[k].f >= s.g[s.open[k].cell] + Manhattan(goal, s.open[k].cell))
  }

  // ---------------------------------------------------------------------------
  // Path reconstruction (lines 103-109)
  // ---------------------------------------------------------------------------

  /** The path `while current in came_from: append; follow` yields, once
      reversed: the back-pointer chain ending at `n`, without its root. */
  function Chain(g: map<Cell, nat>, cameFrom: map<Cell, Cell>, n: Cell): seq<Cell>
    requires ChainOk(g, cameFrom) && n in g
    decreases g[n]
  {
    if n in cameFrom then Chain(g, cameFrom, cameFrom[n]) + [n] else []
  }

  /** The reconstructed chain is a walk from `start`, no longer than `g[n]`,
      that never revisits `start`. */
  lemma {:induction false} ChainIsPath(grid: Grid, start: Cell, goal: Cell, s: Search, n: Cell)
    requires Valid(grid, start, goal, s) && n in s.g
    ensures IsPathTo(grid, start, n, Chain(s.g, s.cameFrom, n))
    ensures |Chain(s.g, s.cameFrom, n)| <= s.g[n]
    ensures start !in Chain(s.g, s.cameFrom, n)
    decreases s.g[n]
  {
    if n in s.cameFrom {
      var m := s.cameFrom[n];
      ChainIsPath(grid, start, goal, s, m);
      var p := Chain(s.g, s.cameFrom, m);
      var q := p + [n];
      assert Chain(s.g, s.cameFrom, n) == q;
      forall i | 0 <= i < |q|
        ensures StepOk(grid, start, q, i)
      {
        if i < |p| {
          assert StepOk(grid, start, p, i);
          assert q[i] == p[i] && Node(start, q, i) == Node(start, p, i);
        } else {
          assert Node(start, q, i) == End(start, p);
        }
      }
    }
  }

  // ---------------------------------------------------------------------------
  // Termination measure
  // ---------------------------------------------------------------------------

  /** In-bounds cells with no `g` score yet. */
  ghost function Undiscovered(grid: Grid, g: map<Cell, nat>): set<Cell> {
    set x, y | 0 <= x < Width(grid) && 0 <= y < Height(grid) && Cell(x, y) !in g :: Cell(x, y)
  }

  function GOf(g: map<Cell, nat>, c: Cell): nat {
    if c in g then g[c] else 0
  }

  /** Sum of `g` over the first `n` cells of row `y`. */
  function RowSum(g: map<Cell, nat>, y: int, n: nat): nat {
    if n == 0 then 0 else RowSum(g, y, n - 1) + GOf(g, Cell(n - 1, y))
  }

  /** Sum of `g` over the first `n` rows, each `w` cells wide. */
  function GridSum(g: map<Cell, nat>, w: nat, n: nat): nat {
    if n == 0 then 0 else GridSum(g, w, n - 1) + RowSum(g, n - 1, w)
  }

  ghost function GSum(grid: Grid, g: map<Cell, nat>): nat {
    GridSum(g, Width(grid), Height(grid))
  }

  lemma {:induction false} RowSumLower(g: map<Cell, nat>, c: Cell, v: nat, y: int, n: nat)
    requires c in g && v < g[c]
    ensures c.y == y && 0 <= c.x < n ==> RowSum(g[c := v], y, n) + (g[c] - v) == RowSum(g, y, n)
    ensures !(c.y == y && 0 <= c.x < n) ==> RowSum(g[c := v], y, n) == RowSum(g, y, n)
  {
    if n > 0 {
      RowSumLower(g, c, v, y, n - 1);
    }
  }

  lemma {:induction false} GridSumLower(g: map<Cell, nat>, c: Cell, v: nat, w: nat, n: nat)
    requires c in g && v < g[c]
    requires 0 <= c.x < w
    ensures 0 <= c.y < n ==> GridSum(g[c := v], w, n) + (g[c] - v) == GridSum(g, w, n)
    ensures !(0 <= c.y < n) ==> GridSum(g[c := v], w, n) == GridSum(g, w, n)
  {
    if n > 0 {
      GridSumLower(g, c, v, w, n - 1);
      RowSumLower(g, c, v, n - 1, w);
    }
  }

  /** Lexicographic progress of the pair (undiscovered cells, sum of g). */
  ghost predicate Progress(grid: Grid, g: map<Cell, nat>, g': map<Cell, nat>) {
    || Undiscovered(grid, g') < Undiscovered(grid, g)
    || (Undiscovered(grid, g') == Undiscovered(grid, g) && GSum(grid, g') < GSum(grid, g))
  }

  /** Lowering the `g` of a known cell discovers nothing new. */
  lemma LowerKeepsUndiscovered(grid: Grid, g: map<Cell, nat>, c: Cell, v: nat)
    requires c in g
    ensures Undiscovered(grid, g[c := v]) == Undiscovered(grid, g)
  {
    assert g[c := v].Keys == g.Keys;
  }

  /** Recording a `g` for an undiscovered grid cell shrinks the undiscovered set. */
  lemma DiscoverShrinks(grid: Grid, g: map<Cell, nat>, c: Cell, v: nat)
    requires c !in g && InBounds(grid, c)
    ensures Undiscovered(grid, g[c := v]) < Undiscovered(grid, g)
  {
    assert c in Undiscovered(grid, g);
    assert c !in Undiscovered(grid, g[c := v]);
    assert Undiscovered(grid, g[c := v]) <= Undiscovered(grid, g);
  }

  /** A relaxation either leaves the state alone or makes progress. */
  lemma RelaxProgress(grid: Grid, goal: Cell, s: Search, cur: Cell, m: Cell)
    requires cur in s.g
    ensures var s' := Relax(grid, goal, s, cur, m);
            s' == s || Progress(grid, s.g, s'.g)
  {
    var s' := Relax(grid, goal, s, cur, m);
    if s' != s {
      assert s'.g == s.g[m := s.g[cur] + 1];
      if m in s.g {
        LowerKeepsUndiscovered(grid, s.g, m, s.g[cur] + 1);
        GridSumLower(s.g, m, s.g[cur] + 1, Width(grid), Height(grid));
        assert GSum(grid, s'.g) < GSum(grid, s.g);
      } else {
        DiscoverShrinks(grid, s.g, m, s.g[cur] + 1);
      }
    }
  }

  // ---------------------------------------------------------------------------
  // The optimality witness
  // ---------------------------------------------------------------------------

  /** Route node `i` already carries a `g` no worse than its position. */
  ghost predicate Good(g: map<Cell, nat>, start: Cell, p: seq<Cell>, i: nat)
    requires i <= |p|
  {
    Node(start, p, i) in g && g[Node(start, p, i)] <= i
  }

  /** Some open entry for cell `n` has priority at most `b`. */
  ghost predicate PendingLe(open: seq<Entry>, n: Cell, b: int) {
    exists k :: 0 <= k < |open| && open[k].cell == n && open[k].f <= b
  }

  /** For the walk `p` to the goal: every good route node either still has a
      pending entry with priority at most `i + h`, or its successor is good, or
      it is the cell `cur` being expanded and its successor is among the
      neighbours `rest` not relaxed yet. */
  ghost predicate Witness(goal: Cell, start: Cell, s: Search, p: seq<Cell>, cur: Cell, rest: seq<Cell>) {
    forall i :: 0 <= i <= |p| ==> WitnessAt(goal, start, s, p, cur, rest, i)
  }

  ghost predicate WitnessAt(goal: Cell, start: Cell, s: Search, p: seq<Cell>, cur: Cell, rest: seq<Cell>, i: nat)
    requires i <= |p|
  {
    Good(s.g, start, p, i) ==>
      || PendingLe(s.open, Node(start, p, i), i + Manhattan(goal, Node(start, p, i)))
      || (i < |p| && Good(s.g, start, p, i + 1))
      || (i < |p| && Node(start, p, i) == cur && Node(start, p, i + 1) in rest)
  }

  ghost predicate Optimal(grid: Grid, start: Cell, goal: Cell, s: Search, cur: Cell, rest: seq<Cell>) {
    forall p :: IsPathTo(grid, start, goal, p) ==> Witness(goal, start, s, p, cur, rest)
  }

  lemma InitialOptimal(grid: Grid, start: Cell, goal: Cell)
    ensures Optimal(grid, start, goal, Search([Entry(0, start)], map[start := 0], map[]), start, [])
  {
    var s := Search([Entry(0, start)], map[start := 0], map[]);
    forall p | IsPathTo(grid, start, goal, p)
      ensures Witness(goal, start, s, p, start, [])
    {
      forall i | 0 <= i <= |p|
        ensures WitnessAt(goal, start, s, p, start, [], i)
      {
        if Good(s.g, start, p, i) {
          assert s.open[0].cell == Node(start, p, i);
        }
      }
    }
  }

  /** With a walk to the goal in existence, some open entry has priority at
      most the walk's length. */
  lemma {:induction false} PendingWithin(grid: Grid, start: Cell, goal: Cell, s: Search, p: seq<Cell>, i: nat)
    requires Valid(grid, start, goal, s)
    requires IsPathTo(grid, start, goal, p) && Witness(goal, start, s, p, start, [])
    requires i <= |p| && Good(s.g, start, p, i)
    ensures exists k :: 0 <= k < |s.open| && s.open[k].f <= |p|
    decreases |p| - i
  {
    assert WitnessAt(goal, start, s, p, start, [], i);
    if PendingLe(s.open, Node(start, p, i), i + Manhattan(goal, Node(start, p, i))) {
      HeuristicAdmissible(grid, start, goal, p, i);
      var k :| 0 <= k < |s.open| && s.open[k].cell == Node(start, p, i)
               && s.open[k].f <= i + Manhattan(goal, Node(start, p, i));
      assert Manhattan(goal, Node(start, p, i)) == Manhattan(Node(start, p, i), goal);
    } else {
      PendingWithin(grid, start, goal, s, p, i + 1);
    }
  }

  /** Removing the expanded entry keeps the witness, with `cur`'s neighbours
      still to be relaxed. */
  lemma PopKeepsOptimal(grid: Grid, start: Cell, goal: Cell, s: Search, j: nat)
    requires Valid(grid, start, goal, s)
    requires j < |s.open| && s.open[j].cell != goal
    requires Optimal(grid, start, goal, s, start, [])
    ensures Optimal(grid, start, goal, s.(open := s.open[..j] + s.open[j + 1..]),
                    s.open[j].cell, Neighbors(s.open[j].cell))
  {
    var cur := s.open[j].cell;
    var s' := s.(open := s.open[..j] + s.open[j + 1..]);
    forall p | IsPathTo(grid, start, goal, p)
      ensures Witness(goal, start, s', p, cur, Neighbors(cur))
    {
      assert Witness(goal, start, s, p, start, []);
      forall i | 0 <= i <= |p|
        ensures WitnessAt(goal, start, s', p, cur, Neighbors(cur), i)
      {
        assert WitnessAt(goal, start, s, p, start, [], i);
        var n := Node(start, p, i);
        var b := i + Manhattan(goal, n);
        if Good(s.g, start, p, i) && PendingLe(s.open, n, b) {
          var k :| 0 <= k < |s.open| && s.open[k].cell == n && s.open[k].f <= b;
          if k < j {
            assert s'.open[k] == s.open[k];
          } else if k > j {
            assert s'.open[k - 1] == s.open[k];
          } else {
            assert n == cur && i < |p|;
            assert StepOk(grid, start, p, i);
            assert Adjacent(n, Node(start, p, i + 1));
            AdjacentIffNeighbor(n, Node(start, p, i + 1));
          }
        }
      }
    }
  }

  lemma PopKeepsValid(grid: Grid, start: Cell, goal: Cell, s: Search, j: nat)
    requires Valid(grid, start, goal, s) && j < |s.open|
    ensures Valid(grid, start, goal, s.(open := s.open[..j] + s.open[j + 1..]))
  {
    var s' := s.(open := s.open[..j] + s.open[j + 1..]);
    forall k | 0 <= k < |s'.open|
      ensures s'.open[k] == s.open[if k < j then k else k + 1]
    {
    }
  }

  /** One route node's witness survives relaxing the next neighbour. */
  lemma RelaxKeepsWitnessAt(grid: Grid, start: Cell, goal: Cell, s: Search, cur: Cell, rest: seq<Cell>,
                            p: seq<Cell>, i: nat)
    requires cur in s.g && |rest| > 0 && rest[0] != cur
    requires IsPathTo(grid, start, goal, p) && i <= |p|
    requires WitnessAt(goal, start, s, p, cur, rest, i)
    ensures WitnessAt(goal, start, Relax(grid, goal, s, cur, rest[0]), p, cur, rest[1..], i)
  {
    var m := rest[0];
    var s' := Relax(grid, goal, s, cur, m);
    var n := Node(start, p, i);
    var b := i + Manhattan(goal, n);
    if Good(s'.g, start, p, i) {
      if s' != s && n == m {
        // m was just pushed with priority g'[m] + h(m) <= i + h(m)
        assert s'.open[|s'.open| - 1].cell == n;
      } else {
        assert Good(s.g, start, p, i);
        if PendingLe(s.open, n, b) {
          var k :| 0 <= k < |s.open| && s.open[k].cell == n && s.open[k].f <= b;
          assert s'.open[k] == s.open[k];
        } else if i < |p| && Good(s.g, start, p, i + 1) {
          assert Good(s'.g, start, p, i + 1);
        } else {
          assert i < |p| && n == cur && Node(start, p, i + 1) in rest;
          if Node(start, p, i + 1) == m {
            assert StepOk(grid, start, p, i);
            assert Good(s'.g, start, p, i + 1);
          } else {
            assert Node(start, p, i + 1) in rest[1..];
          }
        }
      }
    }
  }

  /** Relaxing the next neighbour keeps the witness. */
  lemma RelaxKeepsOptimal(grid: Grid, start: Cell, goal: Cell, s: Search, cur: Cell, rest: seq<Cell>)
    requires cur in s.g && |rest| > 0
    requires rest[0] != cur
    requires Optimal(grid, start, goal, s, cur, rest)
    ensures Optimal(grid, start, goal, Relax(grid, goal, s, cur, rest[0]), cur, rest[1..])
  {
    var s' := Relax(grid, goal, s, cur, rest[0]);
    forall p | IsPathTo(grid, start, goal, p)
      ensures Witness(goal, start, s', p, cur, rest[1..])
    {
      assert Witness(goal, start, s, p, cur, rest);
      forall i | 0 <= i <= |p|
        ensures WitnessAt(goal, start, s', p, cur, rest[1..], i)
      {
        RelaxKeepsWitnessAt(grid, start, goal, s, cur, rest, p, i);
      }
    }
  }

  /** With nothing left to relax, the witness no longer mentions `cur`. */
  lemma DoneKeepsOptimal(grid: Grid, start: Cell, goal: Cell, s: Search, cur: Cell)
    requires Optimal(grid, start, goal, s, cur, [])
    ensures Optimal(grid, start, goal, s, start, [])
  {
    forall p | IsPathTo(grid, start, goal, p)
      ensures Witness(goal, start, s, p, start, [])
    {
      assert Witness(goal, start, s, p, cur, []);
      forall i | 0 <= i <= |p|
        ensures WitnessAt(goal, start, s, p, start, [], i)
      {
        assert WitnessAt(goal, start, s, p, cur, [], i);
      }
    }
  }

  lemma RelaxKeepsValid(grid: Grid, start: Cell, goal: Cell, s: Search, cur: Cell, m: Cell)
    requires Valid(grid, start, goal, s) && cur in s.g && Adjacent(cur, m)
    ensures Valid(grid, start, goal, Relax(grid, goal, s, cur, m))
    ensures Relax(grid, goal, s, cur, m).g.Keys >= s.g.Keys
  {
    var s' := Relax(grid, goal, s, cur, m);
    if s' != s {
      assert m != start;
      forall n | n in s'.cameFrom
        ensures n in s'.g && s'.cameFrom[n] in s'.g && s'.g[s'.cameFrom[n]] < s'.g[n]
      {
        if n != m {
          assert s'.cameFrom[n] == s.cameFrom[n];
        }
      }
      forall k | 0 <= k < |s'.open|
        ensures s'.open[k].cell == start
             || s'.open[k].f >= s'.g[s'.open[k].cell] + Manhattan(goal, s'.open[k].cell)
      {
        if k < |s.open| {
          assert s'.open[k] == s.open[k];
        }
      }
    }
  }

  /** When the goal is popped with a least entry, the reconstructed chain is a
      walk to the goal no longer than any other walk. */
  lemma GoalPopped(grid: Grid, start: Cell, goal: Cell, s: Search, j: nat)
    requires Valid(grid, start, goal, s) && Optimal(grid, start, goal, s, start, [])
    requires j < |s.open| && s.open[j].cell == goal
    requires forall k :: 0 <= k < |s.open| ==> EntryLe(s.open[j], s.open[k])
    ensures IsPathTo(grid, start, goal, Chain(s.g, s.cameFrom, goal))
    ensures start !in Chain(s.g, s.cameFrom, goal)
    ensures forall p :: IsPathTo(grid, start, goal, p) ==> |Chain(s.g, s.cameFrom, goal)| <= |p|
  {
    ChainIsPath(grid, start, goal, s, goal);
    forall p | IsPathTo(grid, start, goal, p)
      ensures |Chain(s.g, s.cameFrom, goal)| <= |p|
    {
      assert Witness(goal, start, s, p, start, []);
      assert Good(s.g, start, p, 0);
      PendingWithin(grid, start, goal, s, p, 0);
    }
  }

  /** An exhausted open set means no walk reaches the goal. */
  lemma ExhaustedUnreachable(grid: Grid, start: Cell, goal: Cell, s: Search)
    requires Valid(grid, start, goal, s) && Optimal(grid, start, goal, s, start, [])
    requires |s.open| == 0
    ensures !Reachable(grid, start, goal)
  {
    forall p | IsPathTo(grid, start, goal, p)
      ensures false
    {
      assert Witness(goal, start, s, p, start, []);
      assert Good(s.g, start, p, 0);
      PendingWithin(grid, start, goal, s, p, 0);
    }
  }

  /** One relaxation inside the neighbour loop keeps every loop invariant. */
  lemma RelaxStep(grid: Grid, start: Cell, goal: Cell, s0: Search, s: Search, cur: Cell, rest: seq<Cell>)
    requires Valid(grid, start, goal, s) && cur in s.g && |rest| > 0 && Adjacent(cur, rest[0])
    requires Optimal(grid, start, goal, s, cur, rest)
    requires s == s0 || Progress(grid, s0.g, s.g)
    requires Undiscovered(grid, s.g) <= Undiscovered(grid, s0.g)
    ensures var s' := Relax(grid, goal, s, cur, rest[0]);
            && Valid(grid, start, goal, s') && cur in s'.g
            && Optimal(grid, start, goal, s', cur, rest[1..])
            && (s' == s0 || Progress(grid, s0.g, s'.g))
            && Undiscovered(grid, s'.g) <= Undiscovered(grid, s0.g)
  {
    RelaxKeepsOptimal(grid, start, goal, s, cur, rest);
    RelaxKeepsValid(grid, start, goal, s, cur, rest[0]);
    RelaxProgress(grid, goal, s, cur, rest[0]);
  }

  // ---------------------------------------------------------------------------
  // The search
  // ---------------------------------------------------------------------------

  /** `find_path_to_player` on integer cells. The result is the empty path
      when start and goal coincide, `None` exactly when the goal is
      unreachable through open cells, and otherwise a shortest walk. */
  method FindPath(grid: Grid, start: Cell, goal: Cell) returns (r: Option<seq<Cell>>)
    ensures start == goal ==> r == Some([])
    ensures r.Some? <==> Reachable(grid, start, goal)
    ensures r.Some? ==> IsPathTo(grid, start, goal, r.value) && start !in r.value
    ensures r.Some? ==> forall p :: IsPathTo(grid, start, goal, p) ==> |r.value| <= |p|
  {
    var s := Search([Entry(0, start)], map[start := 0], map[]);
    InitialOptimal(grid, start, goal);
    while |s.open| > 0
      invariant Valid(grid, start, goal, s)
      invariant Optimal(grid, start, goal, s, start, [])
      decreases Undiscovered(grid, s.g), GSum(grid, s.g), |s.open|
    {
      var j, e, rest := PopMin(s.open);
      var cur := e.cell;
      if cur == goal {
        GoalPopped(grid, start, goal, s, j);
        r := Some(Chain(s.g, s.cameFrom, cur));
        if start == goal {
          assert IsPathTo(grid, start, goal, []);
        }
        return;
      }
      PopKeepsOptimal(grid, start, goal, s, j);
      PopKeepsValid(grid, start, goal, s, j);
      var s0 := s.(open := rest);
      var ns := Neighbors(cur);
      s := s0;
      var k := 0;
      while k < 4
        invariant 0 <= k <= 4
        invariant Valid(grid, start, goal, s) && cur in s.g
        invariant Optimal(grid, start, goal, s, cur, ns[k..])
        invariant s == s0 || Progress(grid, s0.g, s.g)
        invariant Undiscovered(grid, s.g) <= Undiscovered(grid, s0.g)
      {
        RelaxStep(grid, start, goal, s0, s, cur, ns[k..]);
        assert ns[k..][1..] == ns[k + 1..];
        s := Relax(grid, goal, s, cur, ns[k]);
        k := k + 1;
      }
      assert ns[k..] == [];
      DoneKeepsOptimal(grid, start, goal, s, cur);
    }
    ExhaustedUnreachable(grid, start, goal, s);
    r := None;
    assert start != goal by {
      if start == goal {
        assert IsPathTo(grid, start, goal, []);
      }
    }
  }
}

=== FILE: players.dfy ===
/**
 The player (`Player`) and its projectiles (`Laser`): half-tile moves
 inside the arena, facing, digging the adjacent cell, firing on a cooldown,
 and the lasers' straight-line flight and box-overlap tests.
 */
module Players {
  import opened Wrappers
  import opened Cells
  import opened Grids

  const Speed: real := 0.5
  const LaserSpeed: real := 0.3
  const DigDuration: real := 0.5
  /** Number of walking-animation frames (`len(self.move_images)`). */
  const MoveFrames: nat := 7
  /** Largest x and y the edge guards of `move` let the player reach. */
  const MaxX: real := 14.0
  const MaxY: real := 13.0

  /** The four joystick directions the source passes as strings. */
  datatype Direction = Up | Down | Left | Right

  datatype Laser = Laser(x: real, y: real, dir: Direction)

  datatype Player = Player(
    x: real, y: real,
    lasers: seq<Laser>,
    lastLaserTime: real,
    laserCooldown: real,
    facingRight: bool,
    isDigging: bool,
    digTime: real,
    digDirection: Option<Direction>,
    laserDirection: Option<Direction>,
    animationIndex: nat)

  /** The player as constructed: at the origin, facing right, no direction yet. */
  function NewPlayer(): (p: Player)
    ensures p.x == 0.0 && p.y == 0.0 && p.lasers == [] && p.digDirection.None?
  {
    Player(0.0, 0.0, [], 0.0, 2.5, true, false, 0.0, None, None, 0)
  }

  /** `v` is a multiple of half a tile. */
  predicate OnHalfGrid(v: real) {
    (2.0 * v).Floor as real == 2.0 * v
  }

  /** The position invariant `move` keeps: inside `[0, 14] x [0, 13]` on the half-tile lattice. */
  predicate InArena(p: Player) {
    0.0 <= p.x <= MaxX && 0.0 <= p.y <= MaxY && OnHalfGrid(p.x) && OnHalfGrid(p.y)
  }

  /** The tentative position of lines 62-72, before the walkability check. */
  function Step(p: Player, dir: Direction): (real, real) {
    match dir
    case Up => if p.y > 0.0 then (p.x, p.y - Speed) else (p.x, p.y)
    case Down => if p.y < MaxY then (p.x, p.y + Speed) else (p.x, p.y)
    case Left => if p.x > 0.0 then (p.x - Speed, p.y) else (p.x, p.y)
    case Right => if p.x < MaxX then (p.x + Speed, p.y) else (p.x, p.y)
  }

  /** `Player.move`. The facing flips on a horizontal move that passes the
      edge guard, even when the cell turns out to be blocked; the position
      commits only when the truncated destination is an empty cell. */
  function Move(p: Player, dir: Direction, grid: Grid): (p': Player)
    ensures || (p'.x == p.x && p'.y == p.y)
            || (p'.x == p.x && (p'.y == p.y - Speed || p'.y == p.y + Speed))
            || (p'.y == p.y && (p'.x == p.x - Speed || p'.x == p.x + Speed))
    ensures (p'.x, p'.y) == (p.x, p.y) || (p'.x, p'.y) == Step(p, dir)
    ensures (p'.x, p'.y) != (p.x, p.y) ==> CanMove(grid, p'.x, p'.y)
    ensures (p'.x, p'.y) == (p.x, p.y) ==> Step(p, dir) == (p.x, p.y) || !CanMove(grid, Step(p, dir).0, Step(p, dir).1)
    ensures dir == Left && p.x > 0.0 ==> !p'.facingRight
    ensures dir == Right && p.x < MaxX ==> p'.facingRight
    ensures (dir == Up || dir == Down || (dir == Left && p.x <= 0.0) || (dir == Right && p.x >= MaxX))
              ==> p'.facingRight == p.facingRight
    ensures p'.digDirection == Some(dir) && p'.laserDirection == Some(dir)
    ensures p'.animationIndex < MoveFrames
    ensures p'.lasers == p.lasers && p'.isDigging == p.isDigging
    ensures p' == p.(x := p'.x, y := p'.y, facingRight := p'.facingRight, animationIndex := p'.animationIndex,
                     digDirection := p'.digDirection, laserDirection := p'.laserDirection)
  {
    var (nx, ny) := Step(p, dir);
    var facing :=
      if dir == Left && p.x > 0.0 then false
      else if dir == Right && p.x < MaxX then true
      else p.facingRight;
    var moved := if CanMove(grid, Trunc(nx) as real, Trunc(ny) as real) then p.(x := nx, y := ny) else p;
    moved.(facingRight := facing,
           animationIndex := (p.animationIndex + 1) % MoveFrames,
           digDirection := Some(dir),
           laserDirection := Some(dir))
  }

  /** A half-tile position strictly above zero is at least half a tile. */
  lemma HalfGridPositive(v: real)
    requires OnHalfGrid(v) && v > 0.0
    ensures v >= Speed
  {
    var k := (2.0 * v).Floor;
    assert k as real == 2.0 * v;
    assert k >= 1;
  }

  lemma HalfGridBelow(v: real, bound: real)
    requires OnHalfGrid(v) && OnHalfGrid(bound) && v < bound
    ensures v + Speed <= bound
  {
    var k := (2.0 * v).Floor;
    var b := (2.0 * bound).Floor;
    assert k as real == 2.0 * v && b as real == 2.0 * bound;
    assert k < b;
  }

  lemma HalfGridStep(v: real)
    requires OnHalfGrid(v)
    ensures OnHalfGrid(v + Speed) && OnHalfGrid(v - Speed)
  {
    var k := (2.0 * v).Floor;
    assert 2.0 * v == k as real;
    assert 2.0 * (v + Speed) == (k + 1) as real && ((k + 1) as real).Floor == k + 1;
    assert 2.0 * (v - Speed) == (k - 1) as real && ((k - 1) as real).Floor == k - 1;
  }

  /** The tentative position of a player in the arena is in the arena too. */
  lemma StepStaysInArena(p: Player, dir: Direction)
    requires InArena(p)
    ensures var (nx, ny) := Step(p, dir);
            0.0 <= nx <= MaxX && 0.0 <= ny <= MaxY && OnHalfGrid(nx) && OnHalfGrid(ny)
  {
    match dir
    case Up =>
      if p.y > 0.0 { HalfGridPositive(p.y); HalfGridStep(p.y); }
    case Down =>
      if p.y < MaxY {
        assert OnHalfGrid(MaxY) by { assert (2.0 * MaxY).Floor == 26; }
        HalfGridBelow(p.y, MaxY);
        HalfGridStep(p.y);
      }
    case Left =>
      if p.x > 0.0 { HalfGridPositive(p.x); HalfGridStep(p.x); }
    case Right =>
      if p.x < MaxX {
        assert OnHalfGrid(MaxX) by { assert (2.0 * MaxX).Floor == 28; }
        HalfGridBelow(p.x, MaxX);
        HalfGridStep(p.x);
      }
  }

  /** The edge guards keep a player who starts in the arena inside it, on
      every grid. */
  lemma MoveStaysInArena(p: Player, dir: Direction, grid: Grid)
    requires InArena(p)
    ensures InArena(Move(p, dir, grid))
  {
    StepStaysInArena(p, dir);
  }

  /** The cell `dig` aims at: one whole tile away in the dig direction. */
  function DigTarget(p: Player, dir: Direction): (t: (real, real))
    ensures t == (p.x + Heading(dir).0 as real, p.y + Heading(dir).1 as real)
  {
    match dir
    case Up => (p.x, p.y - 1.0)
    case Down => (p.x, p.y + 1.0)
    case Left => (p.x - 1.0, p.y)
    case Right => (p.x + 1.0, p.y)
  }

  /** `Player.dig` with the game's `can_dig` and `destroy_block`: without a
      direction nothing happens; otherwise the targeted block, if diggable,
      is destroyed and scored and the dig animation starts. */
  function Dig(p: Player, grid: Grid, score: int, now: real): (r: (Player, Grid, int))
    ensures p.digDirection.None? ==> r == (p, grid, score)
    ensures p.digDirection.Some? ==>
      var (tx, ty) := DigTarget(p, p.digDirection.value);
      if CanDig(grid, tx, ty) then
        && r.1 == Set(grid, CellOf(tx, ty), 0)
        && r.2 == score + BlockPoints(At(grid, CellOf(tx, ty)))
        && r.0 == p.(isDigging := true, digTime := now)
      else r == (p, grid, score)
  {
    match p.digDirection
    case None => (p, grid, score)
    case Some(dir) =>
      var (tx, ty) := DigTarget(p, dir);
      if CanDig(grid, tx, ty) then
        var (g', s') := DestroyBlock(grid, score, tx, ty);
        (p.(isDigging := true, digTime := now), g', s')
      else (p, grid, score)
  }

  /** Digging changes at most the one targeted cell, and only raises the score. */
  lemma DigTouchesOneCell(p: Player, grid: Grid, score: int, now: real, c: Cell)
    requires p.digDirection.Some?
    requires InBounds(grid, c) && c != CellOf(DigTarget(p, p.digDirection.value).0, DigTarget(p, p.digDirection.value).1)
    ensures var (p', g', s') := Dig(p, grid, score, now);
            InBounds(g', c) && At(g', c) == At(grid, c) && s' >= score && p'.x == p.x && p'.y == p.y
  {
  }

  /** `Player.reset`: back to the origin with no lasers and no dig in progress. */
  function Reset(p: Player): (p': Player)
    ensures p'.x == 0.0 && p'.y == 0.0 && p'.lasers == [] && !p'.isDigging
    ensures p'.facingRight == p.facingRight && p'.lastLaserTime == p.lastLaserTime
    ensures p'.laserCooldown == p.laserCooldown && p'.digDirection == p.digDirection
    ensures p' == p.(x := p'.x, y := p'.y, lasers := p'.lasers, isDigging := p'.isDigging)
  {
    p.(x := 0.0, y := 0.0, lasers := [], isDigging := false)
  }

  /** A reset player is in the arena. */
  lemma ResetInArena(p: Player)
    ensures InArena(Reset(p))
  {
    assert (2.0 * 0.0).Floor == 0;
  }

  /** `Player.shoot_laser`: fires from the player's position in the last
      moved direction once the cooldown has elapsed, and restarts the cooldown. */
  function ShootLaser(p: Player, now: real): (p': Player)
    ensures now - p.lastLaserTime >= p.laserCooldown && p.laserDirection.Some? ==>
      && p'.lasers == p.lasers + [Laser(p.x, p.y, p.laserDirection.value)]
      && p'.lastLaserTime == now
    ensures !(now - p.lastLaserTime >= p.laserCooldown && p.laserDirection.Some?) ==> p' == p
    ensures p'.x == p.x && p'.y == p.y && p'.laserCooldown == p.laserCooldown
    ensures p' == p.(lasers := p'.lasers, lastLaserTime := p'.lastLaserTime)
  {
    if now - p.lastLaserTime >= p.laserCooldown && p.laserDirection.Some? then
      p.(lasers := p.lasers + [Laser(p.x, p.y, p.laserDirection.value)], lastLaserTime := now)
    else p
  }

  /** Two shots closer together than a positive cooldown fire at most one laser. */
  lemma CooldownLimitsFire(p: Player, t1: real, t2: real)
    requires p.laserCooldown > 0.0 && t1 <= t2 < t1 + p.laserCooldown
    ensures |ShootLaser(ShootLaser(p, t1), t2).lasers| <= |p.lasers| + 1
  {
  }

  /** The dig-timeout part of `Player.update`. */
  function EndDig(p: Player, now: real): (p': Player)
    ensures p'.isDigging <==> p.isDigging && now - p.digTime < DigDuration
    ensures p' == p.(isDigging := p'.isDigging)
  {
    if p.isDigging && now - p.digTime >= DigDuration then p.(isDigging := false) else p
  }

  /** Once the dig has timed out, later updates change nothing more. */
  lemma EndDigSettles(p: Player, now: real, later: real)
    requires now <= later
    ensures !EndDig(p, now).isDigging ==> EndDig(EndDig(p, now), later) == EndDig(p, now)
    ensures EndDig(EndDig(p, now), later) == EndDig(p, later)
  {
  }

  /** `Laser.update`: one step of `0.3` along the laser's direction. */
  function LaserStep(l: Laser): (l': Laser)
    ensures l'.dir == l.dir
    ensures l.dir == Up ==> l'.x == l.x && l'.y == l.y - LaserSpeed
    ensures l.dir == Down ==> l'.x == l.x && l'.y == l.y + LaserSpeed
    ensures l.dir == Left ==> l'.y == l.y && l'.x == l.x - LaserSpeed
    ensures l.dir == Right ==> l'.y == l.y && l'.x == l.x + LaserSpeed
  {
    match l.dir
    case Up => l.(y := l.y - LaserSpeed)
    case Down => l.(y := l.y + LaserSpeed)
    case Left => l.(x := l.x - LaserSpeed)
    case Right => l.(x := l.x + LaserSpeed)
  }

  /** The laser after `n` updates. */
  function LaserAfter(l: Laser, n: nat): Laser {
    if n == 0 then l else LaserStep(LaserAfter(l, n - 1))
  }

  /** The unit vector of a direction, as `(dx, dy)`. */
  function Heading(d: Direction): (int, int) {
    match d
    case Up => (0, -1)
    case Down => (0, 1)
    case Left => (-1, 0)
    case Right => (1, 0)
  }

  /** A laser flies in a straight line: after `n` updates it has moved
      exactly `0.3 n` along its heading and not at all across it. */
  lemma {:induction false} LaserStraightLine(l: Laser, n: nat)
    ensures LaserAfter(l, n).dir == l.dir
    ensures LaserAfter(l, n).x == l.x + (Heading(l.dir).0 * n) as real * LaserSpeed
    ensures LaserAfter(l, n).y == l.y + (Heading(l.dir).1 * n) as real * LaserSpeed
  {
    if n > 0 {
      LaserStraightLine(l, n - 1);
    }
  }

  /** Two unit boxes overlap: both axis distances are below one tile. */
  predicate Overlap(x1: real, y1: real, x2: real, y2: real) {
    RealAbs(x1 - x2) < 1.0 && RealAbs(y1 - y2) < 1.0
  }

  function RealAbs(r: real): real {
    if r < 0.0 then -r else r
  }

  /** `Laser.collides_with(other)`. */
  predicate CollidesWith(l: Laser, otherX: real, otherY: real) {
    Overlap(l.x, l.y, otherX, otherY)
  }

  /** `Laser.collides_with_hive(hive_x, hive_y)`. */
  predicate CollidesWithHive(l: Laser, hiveX: int, hiveY: int) {
    Overlap(l.x, l.y, hiveX as real, hiveY as real)
  }

  /** The overlap test is symmetric, and a hit means the laser lies within a
      tile of the target on both axes. */
  lemma OverlapSymmetric(x1: real, y1: real, x2: real, y2: real)
    ensures Overlap(x1, y1, x2, y2) <==> Overlap(x2, y2, x1, y1)
    ensures Overlap(x1, y1, x2, y2) <==> x2 - 1.0 < x1 < x2 + 1.0 && y2 - 1.0 < y1 < y2 + 1.0
  {
  }
}

=== FILE: scoreboards.dfy ===
/**
 The high-score table (`Scoreboard`): one list of at most five scores per
 difficulty, best first, and the cycling through the difficulties on the
 score screen.
 */
module Scoreboards {
  import opened Wrappers

  /** Scores kept per difficulty. */
  const BoardSize: nat := 5

  /** The three difficulties, in the order the score screen cycles them. */
  const Difficulties: seq<string> := ["easy", "medium", "hard"]

  /** The table a new scoreboard starts with (before any saved table is loaded). */
  const EmptyBoard: map<string, seq<int>> := map["easy" := [], "medium" := [], "hard" := []]

  /** Best first: no score is followed by a larger one. */
  predicate SortedDesc(s: seq<int>) {
    forall i, j :: 0 <= i < j < |s| ==> s[i] >= s[j]
  }

  /** `x` placed in front of the first score it is at least as large as. */
  function Insert(x: int, s: seq<int>): (r: seq<int>)
    requires SortedDesc(s)
    ensures SortedDesc(r)
    ensures multiset(r) == multiset(s) + multiset{x}
    ensures |r| == |s| + 1
    ensures r[0] == if |s| == 0 || x >= s[0] then x else s[0]
  {
    if |s| == 0 then [x]
    else if x >= s[0] then [x] + s
    else
      var t := Insert(x, s[1..]);
      assert s == [s[0]] + s[1..];
      [s[0]] + t
  }

  /** `list.sort(reverse=True)` on integers. */
  function SortDesc(s: seq<int>): (r: seq<int>)
    ensures SortedDesc(r)
    ensures multiset(r) == multiset(s)
    ensures |r| == |s|
  {
    if |s| == 0 then []
    else
      assert s == [s[0]] + s[1..];
      Insert(s[0], SortDesc(s[1..]))
  }

  /** The head of a descending list is its largest element. */
  lemma HeadIsMax(a: seq<int>, x: int)
    requires SortedDesc(a) && x in multiset(a)
    ensures |a| > 0 && x <= a[0]
  {
    var k :| 0 <= k < |a| && a[k] == x;
  }

  /** Dropping the best score leaves a descending list. */
  lemma TailSorted(a: seq<int>)
    requires SortedDesc(a) && |a| > 0
    ensures SortedDesc(a[1..])
  {
    forall i, j | 0 <= i < j < |a| - 1
      ensures a[1..][i] >= a[1..][j]
    {
      assert a[1..][i] == a[i + 1] && a[1..][j] == a[j + 1];
    }
  }

  /** Two descending lists with the same non-empty elements share their
      best score, and what remains after it. */
  lemma SameHead(a: seq<int>, b: seq<int>)
    requires SortedDesc(a) && SortedDesc(b) && multiset(a) == multiset(b) && |a| > 0
    ensures |b| > 0 && a[0] == b[0]
    ensures SortedDesc(a[1..]) && SortedDesc(b[1..]) && multiset(a[1..]) == multiset(b[1..])
  {
    assert a[0] in multiset(a);
    HeadIsMax(b, a[0]);
    assert b[0] in multiset(b);
    HeadIsMax(a, b[0]);
    TailSorted(a);
    TailSorted(b);
    assert a == [a[0]] + a[1..];
    assert b == [b[0]] + b[1..];
    assert multiset(a[1..]) == multiset(a) - multiset{a[0]};
    assert multiset(b[1..]) == multiset(b) - multiset{b[0]};
  }

  /** A descending list is determined by its elements: any descending
      arrangement of the same scores is the one the sort produces. */
  lemma {:induction false} SortedDescUnique(a: seq<int>, b: seq<int>)
    requires SortedDesc(a) && SortedDesc(b) && multiset(a) == multiset(b)
    ensures a == b
  {
    if |a| == 0 {
      assert |multiset(b)| == 0;
    } else {
      SameHead(a, b);
      SortedDescUnique(a[1..], b[1..]);
      assert a == [a[0]] + a[1..] && b == [b[0]] + b[1..];
    }
  }

  /** The best `BoardSize` scores of a descending list. */
  function Top(s: seq<int>): (r: seq<int>)
    requires SortedDesc(s)
    ensures SortedDesc(r)
    ensures |r| == (if |s| < BoardSize then |s| else BoardSize)
  {
    if |s| < BoardSize then s else s[..BoardSize]
  }

  /** The scores `Top` drops are each at most every score it keeps. */
  lemma TopKeepsLargest(s: seq<int>)
    requires SortedDesc(s)
    ensures multiset(Top(s)) <= multiset(s)
    ensures forall i, y :: 0 <= i < |Top(s)| && y in multiset(s) - multiset(Top(s)) ==> Top(s)[i] >= y
  {
    if |s| >= BoardSize {
      var t := Top(s);
      var rest := s[BoardSize..];
      assert s == t + rest;
      assert multiset(s) == multiset(t) + multiset(rest);
      forall i, y | 0 <= i < |t| && y in multiset(s) - multiset(t)
        ensures t[i] >= y
      {
        assert y in multiset(rest);
        var k :| 0 <= k < |rest| && rest[k] == y;
        assert s[i] == t[i] && s[BoardSize + k] == y;
      }
    }
  }

  /** `Scoreboard.add_score`: the score joins its difficulty's list, which
      is re-sorted best first and cut to five; the other lists are
      untouched. A difficulty the table has no list for is an error (the
      source raises `KeyError`). */
  function AddScore(scores: map<string, seq<int>>, score: int, difficulty: string)
    : (r: Option<map<string, seq<int>>>)
    ensures r.None? <==> difficulty !in scores
    ensures r.Some? ==> r.value.Keys == scores.Keys
    ensures r.Some? ==> forall d :: d in scores && d != difficulty ==> r.value[d] == scores[d]
    ensures r.Some? ==>
      var before := scores[difficulty] + [score];
      var after := r.value[difficulty];
      && SortedDesc(after)
      && |after| == (if |before| < BoardSize then |before| else BoardSize)
      && multiset(after) <= multiset(before)
      && forall i, y :: 0 <= i < |after| && y in multiset(before) - multiset(after) ==> after[i] >= y
  {
    if difficulty !in scores then None
    else
      var before := scores[difficulty] + [score];
      TopKeepsLargest(SortDesc(before));
      Some(scores[difficulty := Top(SortDesc(before))])
  }

  /** A score the board rejects is no better than any of the five it keeps,
      and a board with room always takes the new score. */
  lemma AddScoreAdmission(scores: map<string, seq<int>>, score: int, difficulty: string)
    requires difficulty in scores
    ensures var after := AddScore(scores, score, difficulty).value[difficulty];
      && (|scores[difficulty]| < BoardSize ==> score in after)
      && (score !in after ==> |after| == BoardSize && forall i :: 0 <= i < |after| ==> after[i] >= score)
  {
    var before := scores[difficulty] + [score];
    var after := AddScore(scores, score, difficulty).value[difficulty];
    assert score in multiset(before) by { assert before[|before| - 1] == score; }
    if |scores[difficulty]| < BoardSize {
      assert after == SortDesc(before);
      assert score in multiset(after);
    }
    if score !in after {
      assert score !in multiset(after);
      assert score in multiset(before) - multiset(after);
    }
  }

  /** The list `add_score` leaves is the one obtained by sorting the old
      list with the new score and keeping the first five: it does not depend
      on the order the old list was stored in. */
  lemma AddScoreOrderFree(scores: map<string, seq<int>>, other: seq<int>, score: int, difficulty: string)
    requires difficulty in scores && multiset(other) == multiset(scores[difficulty])
    ensures AddScore(scores, score, difficulty).value[difficulty]
         == AddScore(scores[difficulty := other], score, difficulty).value[difficulty]
  {
    var a := SortDesc(scores[difficulty] + [score]);
    var b := SortDesc(other + [score]);
    SortedDescUnique(a, b);
  }

  /** The first score entered at a difficulty of a fresh board is its whole list. */
  lemma FirstScore(score: int, difficulty: string)
    requires difficulty in Difficulties
    ensures AddScore(EmptyBoard, score, difficulty) == Some(EmptyBoard[difficulty := [score]])
  {
    assert SortDesc([score]) == [score];
  }

  /** The "other difficulties" button: the next of easy, medium, hard,
      wrapping around. A name not in that list is an error (the source
      raises `ValueError`). */
  function NextDifficulty(d: string): (r: Option<string>)
    ensures r.None? <==> d !in Difficulties
    ensures r.Some? ==> r.value in Difficulties && r.value != d
    ensures forall i {:trigger Difficulties[i]} :: 0 <= i < |Difficulties| && Difficulties[i] == d ==>
              r == Some(Difficulties[(i + 1) % |Difficulties|])
  {
    if d == "easy" then Some("medium")
    else if d == "medium" then Some("hard")
    else if d == "hard" then Some("easy")
    else None
  }

  /** Pressing the button three times returns to the starting difficulty,
      after showing each of the three exactly once. */
  lemma DifficultyCycle(d: string)
    requires d in Difficulties
    ensures var d1 := NextDifficulty(d).value;
            var d2 := NextDifficulty(d1).value;
            && NextDifficulty(d2) == Some(d)
            && d1 != d2 && {d, d1, d2} == set e | e in Difficulties
  {
  }
}

=== FILE: wrappers.dfy ===
/** The optional value the source expresses with Python's `None`. */
module Wrappers {

  datatype Option<+T> = None | Some(value: T)
}
